=== FILE: README.md ===
# LayerVault exporter, modelled in Dafny

`export.js` downloads an organization's whole LayerVault tree and writes it to disk. The tree runs organization → projects → folders → files → revision clusters → revisions → previews → feedback items, and organizations also hold users. The export has four phases:

- it parses the command line;
- it loads the tree level by level into an in-memory index (`treeObjects`), asking the API for ids in batches;
- it walks the index depth-first, making one directory per node and writing `meta.json` files and `comments.md` threads;
- it downloads revision files and preview images through a self-pumping queue that keeps at most `maxConcurrentRequests` downloads in flight.

This project models those four phases as pure functions and proves what each promises.

| file | module | models |
|---|---|---|
| `wrappers.dfy` | `Wrappers` | `Option`, `Result`; `Emitted`, the output of a computation that an exception can stop part-way |
| `entities.dfy` | `Entities` | the nine entity types, entities, the `children` lists of the `apiConfig` descriptors, the index as a map from (type, id) |
| `args.dfy` | `Args` | `processCommandLineArgs` |
| `fetch.dfy` | `Fetch` | `fetchFromApi`: the testing limit, `_.chunk`, one request per chunk against a mock API, flattening |
| `loader.dfy` | `Loader` | `fetchApiItems` and `indexTreeItems` |
| `feedback.dfy` | `Feedback` | `writeFeedback` |
| `downloads.dfy` | `Downloads` | `requestAndSaveFile`, `processFileRequestQueue`, the `'response'` handler, `getFileNameFromHeader` |
| `serializer.dfy` | `Serializer` | `postProcess`, `processNode` and the per-type `processNode` hooks of `apiConfig` |

Effects become data:

- The remote API is a map from (type, id) to entity.
- The file system writes, and the calls to `requestAndSaveFile`, are a trace of `Action`s.
- The download queue is a (pending list, in-flight counter) pair. It changes on two kinds of `Event`: a push, or a response.
- An exception is an `Emitted` value with `halted` set. Nothing the source catches can stop the walk, so a halted trace ends the export.
- Recursion that follows links (sub-folders, replies, the walk itself) carries a `fuel` bound. Running out of fuel stands for the call stack overflowing or a cyclic structure never finishing.

Behaviours of `export.js` that the model keeps as written:

- A revision cluster makes no `cluster-N` directory. Its hook returns the parent's path, so its revisions land in the file's directory.
- Child ids are not de-duplicated. `_.flatten(items.map(c.get))` keeps repeats. A repeated id is fetched again and indexed again, and the last write wins.
- The loader does not fail fast. `handleError` only logs, and a failed fetch leaves the chain unresolved.
- The download queue is LIFO. `requestQueue.pop()` starts the task pushed most recently.
- Per-chunk responses are flattened in chunk order, because `Q.all` keeps the order of its promises.
- A negative `testingLimit` is passed to `slice(0, limit)`. That drops the last `-limit` ids rather than capping the count.
- "Not found" means the reply's `status` header reads exactly `404 Not Found`. It is not the status code.

## Model

"Well-formed API" below means the mock API stores every entity under its own id (`WellFormed`). Rows that say so hold only for such an API; the ill-formed case is under "## Left out".

| member | source | states |
|---|---|---|
| `Entities.Children` | export.js:34-166 | every child relation leads strictly down the hierarchy except sub-folders and replies; nothing leads back to organizations |
| `Args.Scan` | export.js:592-614 | the flag loop consumes every token once, in order; a valued flag takes the next token as its value whenever one follows, so only the last token can be a valued flag without a value; a token dropped alone is never one of the four flag names |
| `Args.ApplyAll` | export.js:592-614 | each numeric setting ends with the coerced value of the LAST flag that sets it, or keeps its value; `skipFileAssets` ends true iff it started true or some flag sets it; the positional fields are untouched |
| `Args.ParseArgs` | export.js:563-617 | fewer than four arguments and exactly four are the two usage errors, five or more succeed; positions 0-4 are user, password, client id, client secret, organization id; the defaults 400, 0, 10 and false hold unless a later flag overrides them |
| `Args.LaterFlagOverrides` | export.js:594-597 | a later `--maxIdsPerRequest` overrides an earlier one whatever lies between them |
| `Fetch.Truncate` | export.js:261-263 | the ids sent are a prefix of the ids asked for: all of them for limit 0, the first `limit` for a positive limit, all but the last `-limit` for a negative one |
| `Fetch.Chunks` | export.js:267 | the chunks concatenate back to the ids, each holds 1 to `maxIdsPerRequest` ids, all but the last are full, so there are ceil(n / size) of them |
| `Fetch.ResponseContents` | export.js:267-269 | every entity a request returns was asked for, and every id asked for that the API holds is answered |
| `Fetch.FlattenResponses` | export.js:271-275 | flattening the per-chunk responses gives exactly the response to one request for all the ids |
| `Fetch.FetchFromApi` | export.js:256-282 | batching is invisible: the result is what one request for the truncated ids returns, in the same order, with nothing lost or repeated |
| `Loader.LastWithIdIsLast` | export.js:329-334 | the entity indexed for an id is the one at the last position holding that id: no later item has it |
| `Loader.IndexItems` | export.js:329-334 | a key of the indexed type holds the LAST item with that id; every other key keeps what it held; no key is removed |
| `Loader.GatherContains` | export.js:234 | every id a relation lists on any item of the level is among the ids loaded for that relation |
| `Loader.IndexResponseConsistent` | export.js:226-230 | indexing a well-formed API's response keeps every entry equal to the API's entity and indexes every requested id the API holds |
| `Loader.FetchedIsFetchFromApi` | export.js:256-282 | what the loader indexes for a level is exactly what the chunked `fetchFromApi` returns |
| `Loader.LoadStep` | export.js:213-243 | for a well-formed API and a starting index that matches it: an empty id list resolves with the index unchanged; otherwise every entity the fetch for the level returns is in the final index under its type and id |
| `Loader.LoadSound` | export.js:213-243 | the load never removes a key, and with a well-formed API every entry it stores is the API's entity for its key |
| `Loader.LoadFrame` | export.js:213-243 | a load over `idx + base` finishes iff the same load over `base` does, and gives `idx` overridden by that load's result |
| `Loader.LoadFromAnyIndex` | export.js:213-243 | whether a load finishes does not depend on the index it starts from, and its result is the starting index overridden by what it loads from nothing |
| `Loader.SiblingOrderIrrelevant` | export.js:233-235 | with a well-formed API, two sibling loads that each finish give the same index in either order |
| `Loader.LoadKeepsOrganizations` | export.js:233-235 | loading any type below the root leaves the organization entries untouched |
| `Loader.LoadClosed` | export.js:213-243 | for a well-formed API and without a testing limit, a load indexes the ids asked for and, transitively, every child the API can resolve |
| `Loader.LoadReachable` | export.js:213-243 | for a well-formed API, every key a load adds is reachable: it lies in any set that holds the ids asked for and is closed under the API's child links |
| `Loader.LoadFinishes` | export.js:213-243 | a load finishes whenever the ids asked for lie in a key set closed under the API's child links, some rank strictly drops along every child link inside that set, and every id asked for ranks below the fuel; so a tree that is acyclic below the ids loads completely given enough fuel, whatever cycles the rest of the API holds |
| `Loader.ExportIndexProperties` | export.js:182-190 | for a well-formed API, the index handed to the serializer matches the API, and without a testing limit holds the root organization and every resolvable descendant |
| `Loader.ExportIndexReachable` | export.js:182-190 | for a well-formed API, the index holds nothing but keys reachable from the root organization along the API's child links |
| `Loader.ExportIndexFinishes` | export.js:182-190 | the export's load finishes whenever the root lies in a key set closed under the API's child links, the links inside that set are ranked, and the root ranks below the fuel |
| `Loader.ExportIndexOneOrganization` | export.js:182-190 | the index holds at most one organization, since only the root request, for a single id, loads organizations |
| `Feedback.IndentThenText` | export.js:401 | `depth` levels of indentation are exactly `2 * depth` leading spaces |
| `Feedback.CommentLine` | export.js:400-404 | a comment line starts with exactly `2 * depth` spaces and ends with a newline |
| `Feedback.CommentLineShape` | export.js:400-404 | after its `2 * depth` spaces a comment line starts with the decimal 1-based position and `. **`, and it ends with the item's message and a newline |
| `Feedback.DecimalRoundTrip` | export.js:401 | the number printed before a comment is all digits and reads back as the number itself |
| `Feedback.TakeDigitsOf` | export.js:401 | reading a line's leading digits stops exactly where a printed number ends when a non-digit follows it |
| `Feedback.CommentNumber` | export.js:400-401 | reading the digits after a comment line's indentation gives its position plus one |
| `Feedback.Render` | export.js:396-413 | an item's own line comes first at its depth and every later line belongs to a reply, strictly deeper; a run that does not throw writes at least one line |
| `Feedback.RenderReplies` | export.js:408-412 | every line of a reply list is at least at the replies' depth |
| `Feedback.RenderRepliesSplit` | export.js:408-412 | rendering a reply list in two parts numbers the second part from where the first ends |
| `Feedback.ReplyNumberedByPosition` | export.js:408-412 | the reply at list position `j` is rendered as item `j + 1`, after everything before it and before everything after it |
| `Feedback.UnindexedReplySkipped` | export.js:409-411 | a reply missing from the index writes nothing and shifts no later number |
| `Feedback.TwoThreads` | export.js:396-413 | an item with two replies, each answered once, gives five lines in depth-first pre-order with the expected depths and numbers |
| `Feedback.PreviewThreadsInOrder` | export.js:127-134 | a preview's comments are its feedback threads in link order, the thread at position `j` numbered `j + 1` at depth 0, between the threads before and after it |
| `Downloads.Pump` | export.js:445-492 | only the tail of the pending list is taken; the counter grows by the number of starts that did not throw and never passes the ceiling unless it was already above it; the pump stops only when the ceiling is reached or nothing waits |
| `Downloads.PumpPopsNewestFirst` | export.js:445-454 | the tasks taken are popped newest first |
| `Downloads.PumpStartsUnthrown` | export.js:465-491 | the started tasks are the popped ones whose start did not throw, in pop order |
| `Downloads.Enqueue` | export.js:430-439 | a push keeps the counter between 0 and the ceiling and leaves nothing startable waiting; with room, the task just pushed is started first when its start does not throw |
| `Downloads.Finish` | export.js:445-471 | a response to a request in flight keeps the counter between 0 and the ceiling, leaves nothing startable waiting, and hands the freed slot to the task pushed most recently among those waiting when its start does not throw |
| `Downloads.ReplayKeepsBound` | export.js:419-492 | however pushes and responses interleave, at most `maxConcurrentRequests` downloads are in flight, and after every event nothing startable is left waiting |
| `Downloads.PushesAlwaysReplay` | export.js:419-492 | a run of pushes alone always has a result: only a response with nothing in flight is impossible |
| `Downloads.PushesFillThenWait` | export.js:430-454 | from a queue with nothing startable waiting, and when no start throws, pushes with no response between them fill the free slots in push order, and the rest wait in push order |
| `Downloads.FileNameFromHeader` | export.js:547-556 | the name is the text after the first `''` of the content-disposition header, or `fileWithUnknownName` when the header is absent or has no `''` |
| `Downloads.FileNameRoundTrip` | export.js:547-556 | a header made of an apostrophe-free prefix, `''` and a name yields exactly that name |
| `Downloads.SaveNameFromHeader` | export.js:480 | with no explicit file name, a header made of an apostrophe-free prefix, `''` and a name saves the file under exactly that name |
| `Downloads.OnResponse` | export.js:468-483 | a response to a request in flight keeps the counter between 0 and the ceiling and leaves nothing startable waiting, whatever the reply; the body is saved iff the status header is not `404 Not Found`, and then inside the task's directory |
| `Downloads.OnResponseSavesHeaderName` | export.js:468-483 | a task pushed without a file name, answered with `''` and a name in its header, is saved as `dir/name` |
| `Serializer.Hook` | export.js:41-164 | clusters and feedback items write nothing and pass the parent's path on; every other type makes its own directory under the parent's path (name, slug, `revision-N`, `preview - N[ - name]`, `users`), first, then writes the node's JSON into it (`meta.json`, or `first-last.json` for a user); only revisions and previews request an asset, as their last action, and only without `skipFileAssets`; the hook writes nothing else |
| `Serializer.PreviewDirName` | export.js:121 | a preview's directory is `preview - N` exactly when its name is falsy, and `preview - N - name` otherwise |
| `Serializer.DirectoryHook` | export.js:41-164 | a directory-making hook writes inside its own directory, writes a preview's comment lines before its asset request, throws only while rendering comments, and writes exactly its directory, its JSON, a preview's comment lines and at most one request |
| `Serializer.Visit` | export.js:367-387 | everything a node's walk writes lies under the path it was given; with `skipFileAssets` nothing is requested; the node's own actions come before its descendants', its directory first |
| `Serializer.VisitIsHookThenChildren` | export.js:367-387 | for every type, a node's walk is its hook's actions followed by the walks of the type's relations in descriptor order, inside the hook's child path |
| `Serializer.VisitWalksChildren` | export.js:374-386 | for every type, every relation of it and every linked id that resolves in the index, a walk that does not throw holds the child's whole walk as one contiguous run, made in the node's child path |
| `Serializer.VisitIdsWalks` | export.js:376-385 | a walk of an id list that does not throw holds, as one contiguous run, the whole walk of every listed id that resolves |
| `Serializer.VisitSpecs` | export.js:374-386 | the children of every relation are written under the node's effective path, and nothing is requested under `skipFileAssets` |
| `Serializer.VisitSpecsAppend` | export.js:374 | relations are walked in descriptor order: a relation list split in two walks every child of the first part before any of the second, and a throw in the first part cuts the second off |
| `Serializer.VisitSpecsOne` | export.js:376-385 | one relation walks exactly the ids the node links under it, looked up under the relation's target type |
| `Serializer.FoldersBeforeFiles` | export.js:367-387 | a folder's walk is its own hook's actions, then every sub-folder's subtree, then every file's subtree, all inside the folder's directory |
| `Serializer.VisitIds` | export.js:376-385 | every child of a relation is written under the effective path, and nothing is requested under `skipFileAssets` |
| `Serializer.VisitIdsAppend` | export.js:376-385 | siblings are walked in link order: a list split in two walks its first part, then its second |
| `Serializer.DanglingIdSkipped` | export.js:377-382 | a child id missing from the index adds nothing and the walk carries on with the next sibling |
| `Serializer.RevisionRequestsDownload` | export.js:102-113 | without `skipFileAssets` a revision requests its `download_url` into `revision-N`, the file name to come from the reply |
| `Serializer.PreviewRequestsImage` | export.js:120-143 | without `skipFileAssets` a preview writes its comment lines to `comments.md` in order and then requests its `url` as `preview.png` |
| `Serializer.DepthFirstOrder` | export.js:367-387 | a folder R with sub-folders [A, B], where A holds C, is written R, A, C, B, each directory inside its parent's |
| `Serializer.Serialize` | export.js:346-356 | `out` and `out/<timestamp>` are made first, everything else lies inside the timestamped root, and nothing is requested under `skipFileAssets` |
| `Serializer.SerializeIsWalk` | export.js:352-355 | after `out` and the timestamped root, the export is exactly the walk of the organizations in enumeration order, and throws iff that walk does |
| `Serializer.SerializeWalksOrganizations` | export.js:352-355 | an export that does not throw holds every enumerated organization's whole walk, and so makes each organization's directory inside the timestamped root |
| `Serializer.WalkLeavesQueue` | export.js:346-356 | when no start throws, then when the walk ends, the first `maxConcurrentRequests` requested assets are in flight and the rest wait in request order |

## Left out

- HTTP transport (`_get`): status checks, empty bodies and `JSON.parse` are not modelled. A request is a lookup in the mock API.
- Authentication (`authenticate`) is a call into simple-oauth2, so it is not modelled.
- Q promises and `handleError`: a failed fetch logs and never resolves. The model has no failing fetch.
- Sibling loads run concurrently in the source; the model runs them one after another. `Loader.SiblingOrderIrrelevant` shows that two sibling loads give the same index in either order when the API is well formed; interleavings finer than whole sibling loads are not modelled.
- File system calls (`mkdirp.sync`, `writeFileSync`, `appendFileSync`, stream `pipe`) become actions. `JSON.stringify` output is not modelled; the action carries the entity.
- The requestretry transport is not modelled: its retries (5 attempts, 1000 ms apart), its timing, the response body, and asynchronous `'error'` events (which the source does not handle). Whether `request()` throws at once is a parameter, `throws`.
- The timestamp comes from `strftime` and the clock, so it is a parameter. `process.exit(1)` becomes a `Failure`. Console logging is dropped.
- The unary `+` applied to flag values is a parameter `Coercion` returning an integer. NaN and fractional values are not modelled.
- Fetch.Chunks: assumes lodash 3 `_.chunk`, which treats a size below 1 as 1. Under lodash 4 a size of 0 yields no chunks.
- Downloads.FileNameFromHeader: returns everything after the first `''`. The source's regular expression captures only up to the first line terminator.
- An API that stores an entity under an id other than its own is not covered by the rows that say "well-formed API". The source indexes a response by each entity's own `id` and reads children by the ids it asked for, so such an entity is indexed under a key nothing points to.
- Absent `links` arrays are read as empty. In the source, `_.flatten` would pass `undefined` on as an id, and `processNode` would throw on `forEach`.
- An absent per-type object of `treeObjects` reads as "id not indexed". The source would throw instead; for children the loader reached, it cannot be absent.
- A scalar field that is absent prints as `undefined`, as string concatenation does. An entity records which fields hold a falsy JSON value (`null`, `false`, `0`, `""`); `node.name` is truthy when it is present and not one of them. How such a value prints is the field's text; JSON's number formatting is not modelled.
- `_.values(treeObjects['organizations'])` enumerates organizations in some order. That order is a parameter of `Serializer.Serialize`, constrained to list each indexed organization once.
- Loader.Load: a load that needs more than `fuel` nested levels does not finish (`None`). A cyclic folder or reply structure does the same in the source; a deep finite one finishes there, and `Loader.LoadFinishes` shows the model finishes too once the fuel exceeds the depth of every link chain.
- Serializer.Visit: a walk deeper than `fuel` throws (a halted trace), standing for stack exhaustion. The source's real stack limit is not modelled.
- Feedback.Render: a reply chain deeper than `fuel` throws, as for the walk.
- Serializer.Visit: "under the path" is a textual prefix (`path + "/"` starts every written path). Names are not checked, as in the source: an empty name, `..`, or a name holding `/` can make a real file system put a directory outside its parent or onto a sibling's.
- Feedback.CommentLine: the comment text and the author's names are copied as they are, so a message holding a newline spans several lines of `comments.md`; "one line per comment" counts comments, not newline characters.

=== FILE: args.dfy ===
/**
 * `processCommandLineArgs`: five positional arguments, then a loop over the
 * remaining tokens that consumes two tokens for a valued flag and one for
 * anything else.
 */
module Args {
  import opened Wrappers

  datatype Config = Config(
    user: string,
    password: string,
    clientId: string,
    clientSecret: string,
    organizationId: string,
    maxIdsPerRequest: int,
    testingLimit: int,
    maxConcurrentRequests: int,
    skipFileAssets: bool)

  /** The two usage errors, each ending the process with exit code 1. */
  datatype UsageError = MissingCredentials | MissingOrganizationId

  const DefaultMaxIdsPerRequest: int := 400
  const DefaultTestingLimit: int := 0
  const DefaultMaxConcurrentRequests: int := 10

  /**
   * The unary `+` the source applies to a flag's value token; `None` is the
   * token past the end of the argument list (`undefined`).
   */
  type Coercion = Option<string> -> int

  /** What one turn of the flag loop consumed. */
  datatype Flag =
    | MaxIdsPerRequest(value: Option<string>)
    | TestingLimit(value: Option<string>)
    | MaxConcurrentRequests(value: Option<string>)
    | SkipFileAssets
    | Ignored(token: string)

  /** The three numeric settings a flag can override. */
  datatype Setting = MaxIdsSetting | TestingLimitSetting | ConcurrencySetting

  /** The three flags that take the next token as their value. */
  predicate Valued(f: Flag) {
    f.MaxIdsPerRequest? || f.TestingLimit? || f.MaxConcurrentRequests?
  }

  predicate IsFlagName(token: string) {
    token in {"--maxIdsPerRequest", "--testingLimit", "--maxConcurrentRequests", "--skipFileAssets"}
  }

  /** `optionalArgs[1]`: the value token of a valued flag, if there is one. */
  function ValueAfter(tokens: seq<string>): Option<string> {
    if |tokens| >= 2 then Some(tokens[1]) else None
  }

  /** `optionalArgs.slice(2)`. */
  function DropTwo(tokens: seq<string>): seq<string> {
    if |tokens| >= 2 then tokens[2..] else []
  }

  /** The tokens a flag stands for. */
  function Tokens(f: Flag): seq<string> {
    match f
    case MaxIdsPerRequest(v) => ["--maxIdsPerRequest"] + (if v.Some? then [v.value] else [])
    case TestingLimit(v) => ["--testingLimit"] + (if v.Some? then [v.value] else [])
    case MaxConcurrentRequests(v) => ["--maxConcurrentRequests"] + (if v.Some? then [v.value] else [])
    case SkipFileAssets => ["--skipFileAssets"]
    case Ignored(token) => [token]
  }

  function Unscan(flags: seq<Flag>): seq<string> {
    if flags == [] then [] else Tokens(flags[0]) + Unscan(flags[1..])
  }

  /**
   * The `switch` of the flag loop, turn by turn. Every token is consumed
   * exactly once and in order (the flags spell the tokens back), a valued
   * flag takes the token after it as its value whenever one follows, and a
   * token dropped on its own is never one of the four flag names.
   */
  function Scan(tokens: seq<string>): (flags: seq<Flag>)
    ensures Unscan(flags) == tokens
    ensures forall i :: 0 <= i < |flags| - 1 && Valued(flags[i]) ==> flags[i].value.Some?
    ensures forall i :: 0 <= i < |flags| && flags[i].Ignored? ==> !IsFlagName(flags[i].token)
    decreases |tokens|
  {
    if tokens == [] then []
    else if tokens[0] == "--maxIdsPerRequest" then
      [MaxIdsPerRequest(ValueAfter(tokens))] + Scan(DropTwo(tokens))
    else if tokens[0] == "--testingLimit" then
      [TestingLimit(ValueAfter(tokens))] + Scan(DropTwo(tokens))
    else if tokens[0] == "--maxConcurrentRequests" then
      [MaxConcurrentRequests(ValueAfter(tokens))] + Scan(DropTwo(tokens))
    else if tokens[0] == "--skipFileAssets" then
      [SkipFileAssets] + Scan(tokens[1..])
    else
      [Ignored(tokens[0])] + Scan(tokens[1..])
  }

  /** The value token of a flag that sets `s`, if `f` is one. */
  function SetsTo(f: Flag, s: Setting): Option<Option<string>> {
    match (f, s)
    case (MaxIdsPerRequest(v), MaxIdsSetting) => Some(v)
    case (TestingLimit(v), TestingLimitSetting) => Some(v)
    case (MaxConcurrentRequests(v), ConcurrencySetting) => Some(v)
    case _ => None
  }

  /** The value token of the last flag in `flags` that sets `s`, found by scanning from the end. */
  function Latest(flags: seq<Flag>, s: Setting): Option<Option<string>> {
    if flags == [] then None
    else if SetsTo(flags[|flags| - 1], s).Some? then SetsTo(flags[|flags| - 1], s)
    else Latest(flags[..|flags| - 1], s)
  }

  function Get(c: Config, s: Setting): int {
    match s
    case MaxIdsSetting => c.maxIdsPerRequest
    case TestingLimitSetting => c.testingLimit
    case ConcurrencySetting => c.maxConcurrentRequests
  }

  /** The last flag's coerced value token for `s`, or `otherwise` when no flag sets it. */
  function LatestOr(flags: seq<Flag>, s: Setting, otherwise: int, coerce: Coercion): int {
    match Latest(flags, s)
    case None => otherwise
    case Some(v) => coerce(v)
  }

  /** The value a setting ends with, starting from `c`. */
  function Final(c: Config, flags: seq<Flag>, s: Setting, coerce: Coercion): int {
    LatestOr(flags, s, Get(c, s), coerce)
  }

  /** One turn of the loop body: the assignment a flag makes. */
  function Apply(c: Config, f: Flag, coerce: Coercion): Config {
    match f
    case MaxIdsPerRequest(v) => c.(maxIdsPerRequest := coerce(v))
    case TestingLimit(v) => c.(testingLimit := coerce(v))
    case MaxConcurrentRequests(v) => c.(maxConcurrentRequests := coerce(v))
    case SkipFileAssets => c.(skipFileAssets := true)
    case Ignored(_) => c
  }

  lemma {:induction false} LatestCons(f: Flag, rest: seq<Flag>, s: Setting)
    ensures Latest([f] + rest, s) == if Latest(rest, s).Some? then Latest(rest, s) else SetsTo(f, s)
    decreases |rest|
  {
    if rest != [] {
      var all := [f] + rest;
      assert all[|all| - 1] == rest[|rest| - 1];
      assert all[..|all| - 1] == [f] + rest[..|rest| - 1];
      LatestCons(f, rest[..|rest| - 1], s);
    }
  }

  /**
   * The flag loop run over its turns from first to last. Each numeric
   * setting ends with the value of the LAST flag that sets it (or keeps its
   * starting value), `skipFileAssets` is set iff some turn sets it, and the
   * positional fields are never touched.
   */
  function ApplyAll(c: Config, flags: seq<Flag>, coerce: Coercion): (r: Config)
    ensures r.maxIdsPerRequest == Final(c, flags, MaxIdsSetting, coerce)
    ensures r.testingLimit == Final(c, flags, TestingLimitSetting, coerce)
    ensures r.maxConcurrentRequests == Final(c, flags, ConcurrencySetting, coerce)
    ensures r.skipFileAssets <==> c.skipFileAssets || exists i :: 0 <= i < |flags| && flags[i] == SkipFileAssets
    ensures r.user == c.user && r.password == c.password && r.clientId == c.clientId
    ensures r.clientSecret == c.clientSecret && r.organizationId == c.organizationId
    decreases |flags|
  {
    if flags == [] then c
    else
      LatestCons(flags[0], flags[1..], MaxIdsSetting);
      LatestCons(flags[0], flags[1..], TestingLimitSetting);
      LatestCons(flags[0], flags[1..], ConcurrencySetting);
      assert flags == [flags[0]] + flags[1..];
      var r := ApplyAll(Apply(c, flags[0], coerce), flags[1..], coerce);
      assert r.skipFileAssets <==> c.skipFileAssets || exists i :: 0 <= i < |flags| && flags[i] == SkipFileAssets by {
        if exists i :: 0 <= i < |flags| && flags[i] == SkipFileAssets {
          var i :| 0 <= i < |flags| && flags[i] == SkipFileAssets;
          if i > 0 {
            assert flags[1..][i - 1] == SkipFileAssets;
          }
        }
      }
      r
  }

  function Defaults(argv: seq<string>): Config
    requires |argv| >= 5
  {
    Config(argv[0], argv[1], argv[2], argv[3], argv[4],
           DefaultMaxIdsPerRequest, DefaultTestingLimit, DefaultMaxConcurrentRequests, false)
  }

  /**
   * `processCommandLineArgs`: fewer than four arguments or exactly four are
   * the two usage errors; otherwise the positional arguments fill the
   * credentials and the organization id, and every numeric setting is its
   * default unless a flag after the fifth argument sets it, the last such
   * flag winning.
   */
  function ParseArgs(argv: seq<string>, coerce: Coercion): (r: Result<Config, UsageError>)
    ensures |argv| < 4 <==> r == Failure(MissingCredentials)
    ensures |argv| == 4 <==> r == Failure(MissingOrganizationId)
    ensures r.Success? <==> |argv| >= 5
    ensures r.Success? ==> r.value.user == argv[0] && r.value.password == argv[1]
    ensures r.Success? ==> r.value.clientId == argv[2] && r.value.clientSecret == argv[3]
    ensures r.Success? ==> r.value.organizationId == argv[4]
    ensures r.Success? ==> r.value.maxIdsPerRequest == LatestOr(Scan(argv[5..]), MaxIdsSetting, 400, coerce)
    ensures r.Success? ==> r.value.testingLimit == LatestOr(Scan(argv[5..]), TestingLimitSetting, 0, coerce)
    ensures r.Success? ==> r.value.maxConcurrentRequests == LatestOr(Scan(argv[5..]), ConcurrencySetting, 10, coerce)
    ensures r.Success? ==> (r.value.skipFileAssets <==> SkipFileAssets in Scan(argv[5..]))
  {
    if |argv| < 4 then Failure(MissingCredentials)
    else if |argv| < 5 then Failure(MissingOrganizationId)
    else
      var flags := Scan(argv[5..]);
      var r := ApplyAll(Defaults(argv), flags, coerce);
      assert (exists i :: 0 <= i < |flags| && flags[i] == SkipFileAssets) <==> SkipFileAssets in flags;
      Success(r)
  }

  /** A later occurrence of a valued flag overrides an earlier one, whatever lies between them. */
  lemma {:induction false} LaterFlagOverrides(c: Config, before: seq<Flag>, v: Option<string>, after: seq<Flag>, coerce: Coercion)
    requires forall i :: 0 <= i < |after| ==> !after[i].MaxIdsPerRequest?
    ensures ApplyAll(c, before + [MaxIdsPerRequest(v)] + after, coerce).maxIdsPerRequest == coerce(v)
    decreases |after|
  {
    var all := before + [MaxIdsPerRequest(v)] + after;
    if after == [] {
      assert all[|all| - 1] == MaxIdsPerRequest(v);
    } else {
      assert all[..|all| - 1] == before + [MaxIdsPerRequest(v)] + after[..|after| - 1];
      assert all[|all| - 1] == after[|after| - 1];
      LaterFlagOverrides(c, before, v, after[..|after| - 1], coerce);
    }
  }
}

=== FILE: downloads.dfy ===
/**
 * The asset download queue (`requestAndSaveFile`, `processFileRequestQueue`
 * and the `'response'` handler) and `getFileNameFromHeader`. Only the
 * pending list and the in-flight counter are modelled; whether starting a
 * request throws is an oracle `throws`.
 */
module Downloads {
  import opened Wrappers

  /** `{url, path, fileName}` as pushed by `requestAndSaveFile`. */
  datatype Task = Task(url: string, dir: string, fileName: Option<string>)

  /** `requestQueue` and `currentRequests`. */
  datatype Queue = Queue(pending: seq<Task>, running: int)

  /** The queue after a pump, the tasks popped (in pop order) and those whose request started. */
  datatype Pumped = Pumped(queue: Queue, popped: seq<Task>, started: seq<Task>)

  function Reverse<T>(s: seq<T>): seq<T> {
    if s == [] then [] else [s[|s| - 1]] + Reverse(s[..|s| - 1])
  }

  /** The tasks of `s` for which starting a request does not throw, in order. */
  function Kept(s: seq<Task>, throws: Task -> bool): seq<Task> {
    if s == [] then [] else (if throws(s[0]) then [] else [s[0]]) + Kept(s[1..], throws)
  }

  /** Nothing more can start: the ceiling is reached or nothing is waiting. */
  predicate Quiescent(q: Queue, ceiling: int) {
    q.running >= ceiling || q.pending == []
  }

  /**
   * `processFileRequestQueue`: while below the ceiling and something waits,
   * pop the most recently pushed task and start it. A start that throws
   * gives its slot back at once and the task is dropped. (The source
   * recurses twice after a throw, but the second call finds the state the
   * first one left, where the loop condition already fails.)
   *
   * Only the tail of the list is consumed; the counter grows by the number
   * of started tasks and never past the ceiling, unless it was already above
   * it; and the pump stops only when nothing more can start. The order of
   * the pops is `PumpPopsNewestFirst`.
   */
  function Pump(q: Queue, ceiling: int, throws: Task -> bool): (p: Pumped)
    ensures |p.queue.pending| <= |q.pending| && p.queue.pending == q.pending[..|p.queue.pending|]
    ensures p.queue.running == q.running + |p.started|
    ensures p.queue.running <= if q.running > ceiling then q.running else ceiling
    ensures q.running >= ceiling ==> p.queue == q
    ensures Quiescent(p.queue, ceiling)
    decreases |q.pending|
  {
    if q.running >= ceiling || |q.pending| == 0 then Pumped(q, [], [])
    else
      var n := |q.pending|;
      var task := q.pending[n - 1];
      var next := Queue(q.pending[..n - 1], if throws(task) then q.running else q.running + 1);
      var p := Pump(next, ceiling, throws);
      Pumped(p.queue, [task] + p.popped, (if throws(task) then [] else [task]) + p.started)
  }

  /** The pump pops the waiting tasks newest first. */
  lemma {:induction false} PumpPopsNewestFirst(q: Queue, ceiling: int, throws: Task -> bool)
    ensures var p := Pump(q, ceiling, throws);
            p.popped == Reverse(q.pending[|p.queue.pending|..])
    decreases |q.pending|
  {
    var p := Pump(q, ceiling, throws);
    if q.running >= ceiling || |q.pending| == 0 {
      assert q.pending[|p.queue.pending|..] == [];
    } else {
      var n := |q.pending|;
      var task := q.pending[n - 1];
      var next := Queue(q.pending[..n - 1], if throws(task) then q.running else q.running + 1);
      var rest := Pump(next, ceiling, throws);
      PumpPopsNewestFirst(next, ceiling, throws);
      var k := |rest.queue.pending|;
      assert p.queue == rest.queue && p.popped == [task] + rest.popped;
      assert Reverse(q.pending[k..]) == [task] + Reverse(q.pending[..n - 1][k..]) by {
        assert q.pending[k..][..n - 1 - k] == q.pending[..n - 1][k..];
        assert q.pending[k..][n - 1 - k] == task;
      }
    }
  }

  /** The started tasks are the popped ones whose start did not throw, in pop order. */
  lemma {:induction false} PumpStartsUnthrown(q: Queue, ceiling: int, throws: Task -> bool)
    ensures var p := Pump(q, ceiling, throws);
            p.started == Kept(p.popped, throws)
    decreases |q.pending|
  {
    if q.running < ceiling && |q.pending| > 0 {
      var n := |q.pending|;
      var task := q.pending[n - 1];
      var next := Queue(q.pending[..n - 1], if throws(task) then q.running else q.running + 1);
      var rest := Pump(next, ceiling, throws);
      PumpStartsUnthrown(next, ceiling, throws);
      var p := Pump(q, ceiling, throws);
      assert p.popped == [task] + rest.popped && p.started == (if throws(task) then [] else [task]) + rest.started;
      assert p.popped[1..] == rest.popped;
    }
  }

  /** The counter stays between zero and the ceiling (zero when the ceiling is not positive). */
  predicate Bounded(q: Queue, ceiling: int) {
    0 <= q.running <= (if ceiling > 0 then ceiling else 0)
  }

  /**
   * `requestAndSaveFile`: push the task, then pump. This keeps the counter
   * bounded and leaves the queue quiescent; when there is room and the
   * start does not throw, the task just pushed is the one started first.
   */
  function Enqueue(q: Queue, task: Task, ceiling: int, throws: Task -> bool): (p: Pumped)
    ensures Bounded(q, ceiling) ==> Bounded(p.queue, ceiling)
    ensures Quiescent(p.queue, ceiling)
    ensures q.running < ceiling && !throws(task) ==> |p.started| > 0 && p.started[0] == task
  {
    var q1 := Queue(q.pending + [task], q.running);
    var p := Pump(q1, ceiling, throws);
    var k := |p.queue.pending|;
    PumpPopsNewestFirst(q1, ceiling, throws);
    PumpStartsUnthrown(q1, ceiling, throws);
    if q.running < ceiling then
      assert k < |q1.pending|;
      assert q1.pending[k..][|q1.pending[k..]| - 1] == task;
      p
    else p
  }

  /**
   * The `'response'` handler's bookkeeping: give the slot back, then pump.
   * A response for a request in flight keeps the counter bounded and the
   * queue quiescent, and the task pushed most recently among those still
   * waiting is the one that takes the freed slot.
   */
  function Finish(q: Queue, ceiling: int, throws: Task -> bool): (p: Pumped)
    ensures Bounded(q, ceiling) && q.running > 0 ==> Bounded(p.queue, ceiling)
    ensures Quiescent(p.queue, ceiling)
    ensures Bounded(q, ceiling) && q.running > 0 && q.pending != [] && !throws(q.pending[|q.pending| - 1]) ==>
      |p.started| > 0 && p.started[0] == q.pending[|q.pending| - 1]
  {
    var p := Pump(Queue(q.pending, q.running - 1), ceiling, throws);
    var k := |p.queue.pending|;
    PumpPopsNewestFirst(Queue(q.pending, q.running - 1), ceiling, throws);
    PumpStartsUnthrown(Queue(q.pending, q.running - 1), ceiling, throws);
    if Bounded(q, ceiling) && q.running > 0 && q.pending != [] then
      assert k < |q.pending|;
      assert q.pending[k..][|q.pending[k..]| - 1] == q.pending[|q.pending| - 1];
      p
    else p
  }

  /** What happens to the queue: a push by the serializer, or a response to a started request. */
  datatype Event = Push(task: Task) | Response

  /**
   * The queue after a sequence of events, or `None` if a response arrives
   * while nothing is in flight, which the source cannot produce.
   */
  function Replay(q: Queue, events: seq<Event>, ceiling: int, throws: Task -> bool): Option<Queue>
    decreases |events|
  {
    if events == [] then Some(q)
    else
      match events[0]
      case Push(task) => Replay(Enqueue(q, task, ceiling, throws).queue, events[1..], ceiling, throws)
      case Response =>
        if q.running <= 0 then None
        else Replay(Finish(q, ceiling, throws).queue, events[1..], ceiling, throws)
  }

  /** Only a response can fail: a run of pushes alone always has a result. */
  lemma {:induction false} PushesAlwaysReplay(q: Queue, events: seq<Event>, ceiling: int, throws: Task -> bool)
    requires forall i :: 0 <= i < |events| ==> events[i].Push?
    ensures Replay(q, events, ceiling, throws).Some?
    decreases |events|
  {
    if events != [] {
      PushesAlwaysReplay(Enqueue(q, events[0].task, ceiling, throws).queue, events[1..], ceiling, throws);
    }
  }

  /**
   * However pushes and responses interleave, at most `maxConcurrentRequests`
   * downloads are ever in flight, and after any event nothing that could
   * start is left waiting.
   */
  lemma {:induction false} ReplayKeepsBound(q: Queue, events: seq<Event>, ceiling: int, throws: Task -> bool)
    requires Bounded(q, ceiling)
    requires Replay(q, events, ceiling, throws).Some?
    ensures Bounded(Replay(q, events, ceiling, throws).value, ceiling)
    ensures events != [] ==> Quiescent(Replay(q, events, ceiling, throws).value, ceiling)
    decreases |events|
  {
    if events != [] {
      match events[0]
      case Push(task) =>
        ReplayKeepsBound(Enqueue(q, task, ceiling, throws).queue, events[1..], ceiling, throws);
      case Response =>
        ReplayKeepsBound(Finish(q, ceiling, throws).queue, events[1..], ceiling, throws);
    }
  }

  /** One push event per task, in order. */
  function Pushes(tasks: seq<Task>): (events: seq<Event>)
    ensures |events| == |tasks|
  {
    if tasks == [] then [] else [Push(tasks[0])] + Pushes(tasks[1..])
  }

  lemma {:induction false} PushesAreAllPushes(tasks: seq<Task>)
    ensures forall i :: 0 <= i < |tasks| ==> Pushes(tasks)[i] == Push(tasks[i])
  {
    if tasks != [] {
      PushesAreAllPushes(tasks[1..]);
      assert forall i :: 0 < i < |tasks| ==> Pushes(tasks)[i] == Pushes(tasks[1..])[i - 1];
    }
  }

  /** The queue after pushing `tasks` in order, with no response in between. */
  function Drain(q: Queue, tasks: seq<Task>, ceiling: int, throws: Task -> bool): Queue
    decreases |tasks|
  {
    if tasks == [] then q else Drain(Enqueue(q, tasks[0], ceiling, throws).queue, tasks[1..], ceiling, throws)
  }

  /** Replaying push events is draining the tasks: it never fails. */
  lemma {:induction false} ReplayPushesDrains(q: Queue, tasks: seq<Task>, ceiling: int, throws: Task -> bool)
    ensures Replay(q, Pushes(tasks), ceiling, throws) == Some(Drain(q, tasks, ceiling, throws))
    decreases |tasks|
  {
    if tasks != [] {
      ReplayPush(q, tasks, ceiling, throws);
      ReplayPushesDrains(Enqueue(q, tasks[0], ceiling, throws).queue, tasks[1..], ceiling, throws);
    }
  }

  /**
   * Pushes with no response in between, starting from a quiescent queue
   * and with no start throwing: the pushed tasks fill the free slots in
   * push order, and those that find no slot wait, in push order, behind
   * whatever was already waiting.
   */
  lemma {:induction false} PushesFillThenWait(q: Queue, tasks: seq<Task>, ceiling: int, throws: Task -> bool)
    requires 0 <= q.running && Quiescent(q, ceiling)
    requires forall task :: !throws(task)
    ensures var m := Started(q.running, ceiling, |tasks|);
            Replay(q, Pushes(tasks), ceiling, throws) == Some(Queue(q.pending + tasks[m..], q.running + m))
  {
    DrainFillsThenWaits(q, tasks, ceiling, throws);
    ReplayPushesDrains(q, tasks, ceiling, throws);
  }

  lemma {:induction false} DrainFillsThenWaits(q: Queue, tasks: seq<Task>, ceiling: int, throws: Task -> bool)
    requires 0 <= q.running && Quiescent(q, ceiling)
    requires forall task :: !throws(task)
    ensures var m := Started(q.running, ceiling, |tasks|);
            Drain(q, tasks, ceiling, throws) == Queue(q.pending + tasks[m..], q.running + m)
  {
    var m := Started(q.running, ceiling, |tasks|);
    if q.running >= ceiling {
      DrainWhenFull(q, tasks, ceiling, throws);
      assert m == 0 && tasks[m..] == tasks;
    } else {
      assert q == Queue([], q.running);
      DrainIntoFreeSlots(q.running, tasks, ceiling, throws);
      assert q.pending + tasks[m..] == tasks[m..];
    }
  }

  /** Pushes into a full queue all wait, in push order. */
  lemma {:induction false} DrainWhenFull(q: Queue, tasks: seq<Task>, ceiling: int, throws: Task -> bool)
    requires q.running >= ceiling
    ensures Drain(q, tasks, ceiling, throws) == Queue(q.pending + tasks, q.running)
    decreases |tasks|
  {
    if tasks == [] {
      assert q.pending + tasks == q.pending;
    } else {
      var q1 := Queue(q.pending + [tasks[0]], q.running);
      PushWhenFull(q, tasks[0], ceiling, throws);
      DrainWhenFull(q1, tasks[1..], ceiling, throws);
      assert q1.pending + tasks[1..] == q.pending + tasks;
    }
  }

  /** Pushes into an idle queue with free slots start until the slots run out. */
  lemma {:induction false} DrainIntoFreeSlots(running: int, tasks: seq<Task>, ceiling: int, throws: Task -> bool)
    requires running < ceiling
    requires forall task :: !throws(task)
    ensures var m := Started(running, ceiling, |tasks|);
            Drain(Queue([], running), tasks, ceiling, throws) == Queue(tasks[m..], running + m)
    decreases |tasks|
  {
    var m := Started(running, ceiling, |tasks|);
    if tasks == [] {
      assert tasks[m..] == [];
    } else {
      var rest := tasks[1..];
      var m1 := Started(running + 1, ceiling, |rest|);
      StartedSlice(running, ceiling, tasks);
      FreeSlotStep(running, tasks, ceiling, throws);
      if running + 1 >= ceiling {
        DrainWhenFull(Queue([], running + 1), rest, ceiling, throws);
        assert m1 == 0 && [] + rest == rest[m1..];
      } else {
        DrainIntoFreeSlots(running + 1, rest, ceiling, throws);
      }
    }
  }

  /** The first of the pushes into a free slot starts at once. */
  lemma FreeSlotStep(running: int, tasks: seq<Task>, ceiling: int, throws: Task -> bool)
    requires running < ceiling && tasks != [] && !throws(tasks[0])
    ensures Drain(Queue([], running), tasks, ceiling, throws) == Drain(Queue([], running + 1), tasks[1..], ceiling, throws)
  {
    PushWhenFree(Queue([], running), tasks[0], ceiling, throws);
  }

  /** Starting the first task uses one slot: what is left waiting is the same. */
  lemma StartedSlice(running: int, ceiling: int, tasks: seq<Task>)
    requires running < ceiling && tasks != []
    ensures var m, m1 := Started(running, ceiling, |tasks|), Started(running + 1, ceiling, |tasks[1..]|);
            Queue(tasks[1..][m1..], running + 1 + m1) == Queue(tasks[m..], running + m)
  {
    var m1 := Started(running + 1, ceiling, |tasks[1..]|);
    StartedStep(running, ceiling, |tasks|);
    DropAfterFirst(tasks, m1);
  }

  lemma StartedStep(running: int, ceiling: int, n: nat)
    requires running < ceiling && n > 0
    ensures Started(running, ceiling, n) == 1 + Started(running + 1, ceiling, n - 1)
  {
  }

  lemma DropAfterFirst<T>(s: seq<T>, m: nat)
    requires m < |s|
    ensures s[1..][m..] == s[1 + m..]
  {
  }

  /** How many of `n` pushed tasks find a free slot when `running` are in flight. */
  function Started(running: int, ceiling: int, n: nat): (m: nat)
    ensures m <= n
  {
    if running >= ceiling then 0 else if ceiling - running < n then ceiling - running else n
  }

  lemma ReplayPush(q: Queue, tasks: seq<Task>, ceiling: int, throws: Task -> bool)
    requires tasks != []
    ensures Replay(q, Pushes(tasks), ceiling, throws) == Replay(Enqueue(q, tasks[0], ceiling, throws).queue, Pushes(tasks[1..]), ceiling, throws)
  {
    var events := Pushes(tasks);
    assert events[0] == Push(tasks[0]) && events[1..] == Pushes(tasks[1..]);
  }

  lemma PushWhenFull(q: Queue, task: Task, ceiling: int, throws: Task -> bool)
    requires q.running >= ceiling
    ensures Enqueue(q, task, ceiling, throws).queue == Queue(q.pending + [task], q.running)
  {
  }

  lemma PushWhenFree(q: Queue, task: Task, ceiling: int, throws: Task -> bool)
    requires q.running < ceiling && q.pending == [] && !throws(task)
    ensures Enqueue(q, task, ceiling, throws).queue == Queue([], q.running + 1)
  {
    var pushed := Queue([task], q.running);
    assert pushed.pending[..0] == [];
    assert Pump(Queue([], q.running + 1), ceiling, throws).queue == Queue([], q.running + 1);
  }

  /** The placeholder used when no file name can be read from the response. */
  const UnknownFileName := "fileWithUnknownName"

  /** Two apostrophes start at position `i` of `s`. */
  predicate QuotePairAt(s: string, i: int) {
    0 <= i && i + 1 < |s| && s[i] == '\'' && s[i + 1] == '\''
  }

  /** The position of the first `''` in `s` at or after `from`. */
  function FirstQuotePair(s: string, from: nat): (r: Option<nat>)
    ensures r.Some? ==> from <= r.value && QuotePairAt(s, r.value) &&
                        forall j :: from <= j < r.value ==> !QuotePairAt(s, j)
    ensures r.None? ==> forall j :: from <= j ==> !QuotePairAt(s, j)
    decreases |s| - from
  {
    if from + 1 >= |s| then None
    else if QuotePairAt(s, from) then Some(from)
    else FirstQuotePair(s, from + 1)
  }

  /**
   * `getFileNameFromHeader`: the text after the first `''` of the
   * content-disposition header; the placeholder when the header is absent
   * or has no `''`.
   */
  function FileNameFromHeader(header: Option<string>): (name: string)
    ensures header.None? ==> name == UnknownFileName
    ensures header.Some? && (forall j :: !QuotePairAt(header.value, j)) ==> name == UnknownFileName
    ensures header.Some? && QuotePairAt(header.value, 0) ==> name == header.value[2..]
    ensures forall i :: header.Some? && QuotePairAt(header.value, i) && (forall j :: 0 <= j < i ==> !QuotePairAt(header.value, j)) ==>
      name == header.value[i + 2..]
  {
    match header
    case None => UnknownFileName
    case Some(s) =>
      match FirstQuotePair(s, 0)
      case None => UnknownFileName
      case Some(i) => s[i + 2..]
  }

  /** A header built as an apostrophe-free prefix, `''`, then a name yields exactly that name. */
  lemma FileNameRoundTrip(prefix: string, name: string)
    requires forall i :: 0 <= i < |prefix| ==> prefix[i] != '\''
    ensures FileNameFromHeader(Some(prefix + "''" + name)) == name
  {
    var s := prefix + "''" + name;
    assert QuotePairAt(s, |prefix|);
    forall j | 0 <= j < |prefix|
      ensures !QuotePairAt(s, j)
    {
      assert s[j] == prefix[j];
    }
    assert s[|prefix| + 2..] == name;
  }

  /** The reply to a download: its `status` header and its content-disposition header. */
  datatype Reply = Reply(status: Option<string>, contentDisposition: Option<string>)

  /** `asset.fileName || getFileNameFromHeader(res)`: a non-empty explicit name always wins. */
  function SaveName(task: Task, reply: Reply): (name: string)
    ensures task.fileName.Some? && task.fileName.value != "" ==> name == task.fileName.value
    ensures (task.fileName.None? || task.fileName.value == "") ==> name == FileNameFromHeader(reply.contentDisposition)
  {
    if task.fileName.Some? && task.fileName.value != "" then task.fileName.value
    else FileNameFromHeader(reply.contentDisposition)
  }

  /**
   * With no explicit name, a header made of an apostrophe-free prefix,
   * `''` and a name saves the file under exactly that name.
   */
  lemma SaveNameFromHeader(task: Task, reply: Reply, prefix: string, name: string)
    requires task.fileName.None? || task.fileName == Some("")
    requires reply.contentDisposition == Some(prefix + "''" + name)
    requires forall i :: 0 <= i < |prefix| ==> prefix[i] != '\''
    ensures SaveName(task, reply) == name
  {
    FileNameRoundTrip(prefix, name);
  }

  /**
   * The `'response'` handler: the slot is given back and the queue pumped
   * whatever the reply, so a response to a request in flight keeps the
   * counter bounded and leaves nothing startable waiting; the body is then
   * written inside the task's directory unless the status header reads
   * `404 Not Found`.
   */
  function OnResponse(q: Queue, task: Task, reply: Reply, ceiling: int, throws: Task -> bool): (r: (Pumped, Option<string>))
    ensures r.0 == Finish(q, ceiling, throws)
    ensures Bounded(q, ceiling) && q.running > 0 ==> Bounded(r.0.queue, ceiling) && Quiescent(r.0.queue, ceiling)
    ensures r.1.None? <==> reply.status == Some("404 Not Found")
    ensures r.1.Some? ==> task.dir + "/" <= r.1.value
    ensures r.1.Some? ==> r.1.value == task.dir + "/" + SaveName(task, reply)
  {
    var pumped := Finish(q, ceiling, throws);
    if reply.status == Some("404 Not Found") then (pumped, None)
    else (pumped, Some(task.dir + "/" + SaveName(task, reply)))
  }

  /**
   * A reply that is not a 404, to a task pushed without a file name, whose
   * content-disposition header is an apostrophe-free prefix, `''` and a
   * name: the body is saved as `dir/name`.
   */
  lemma OnResponseSavesHeaderName(q: Queue, task: Task, reply: Reply, ceiling: int, throws: Task -> bool, prefix: string, name: string)
    requires task.fileName.None?
    requires reply.status != Some("404 Not Found")
    requires reply.contentDisposition == Some(prefix + "''" + name)
    requires forall i :: 0 <= i < |prefix| ==> prefix[i] != '\''
    ensures OnResponse(q, task, reply, ceiling, throws).1 == Some(task.dir + "/" + name)
  {
    SaveNameFromHeader(task, reply, prefix, name);
  }
}

=== FILE: entities.dfy ===
/**
 * The entity types of the export hierarchy and the static descriptor table
 * (`apiConfig`): which link arrays of a node lead to which child type, and
 * which types get a directory of their own.
 */
module Entities {
  import opened Wrappers

  /** The nine keys of the descriptor table. */
  datatype EntityType =
    | Organizations
    | Projects
    | Folders
    | Files
    | RevisionClusters
    | Revisions
    | Previews
    | FeedbackItems
    | Users

  /** Ids are keys of JavaScript objects, hence strings. */
  type Id = string

  /**
   * One record returned by the API: its id, its scalar fields as the text a
   * string concatenation prints for them, the fields whose JSON value is
   * falsy in JavaScript (`null`, `false`, `0`, `""`), its `links` arrays by
   * name, and the single id held in `links.user` (feedback items only).
   */
  datatype Entity = Entity(
    id: Id,
    fields: map<string, string>,
    falsy: set<string>,
    links: map<string, seq<Id>>,
    userLink: Option<Id>)

  /** `node.<name>` inside a string concatenation: an absent property prints as "undefined". */
  function Field(e: Entity, name: string): string {
    if name in e.fields then e.fields[name] else "undefined"
  }

  /**
   * `node.<name> ? … : …`: the property is present and its value is not
   * falsy. A `null` name prints as "null" but is falsy all the same.
   */
  predicate Truthy(e: Entity, name: string) {
    name in e.fields && name !in e.falsy && e.fields[name] != ""
  }

  /** `node.links.<relation>`, an absent array being read as empty. */
  function Links(e: Entity, relation: string): seq<Id> {
    if relation in e.links then e.links[relation] else []
  }

  /** One entry of a descriptor's `children` list: the link array read and the type it names. */
  datatype ChildSpec = ChildSpec(relation: string, target: EntityType)

  /** Position of a type in the organization-to-user hierarchy. */
  function Level(t: EntityType): nat {
    match t
    case Organizations => 0
    case Projects => 1
    case Folders => 2
    case Files => 3
    case RevisionClusters => 4
    case Revisions => 5
    case Previews => 6
    case FeedbackItems => 7
    case Users => 8
  }

  /**
   * The `children` list of each descriptor, in declaration order. Every child
   * relation leads down the hierarchy, except the two self-relations
   * (sub-folders and replies); nothing leads back to organizations.
   */
  function Children(t: EntityType): (specs: seq<ChildSpec>)
    ensures forall i :: 0 <= i < |specs| ==> specs[i].target == t || Level(t) < Level(specs[i].target)
    ensures forall i :: 0 <= i < |specs| ==> specs[i].target != Organizations
    ensures forall i :: 0 <= i < |specs| && specs[i].target == t ==> t == Folders || t == FeedbackItems
    ensures t == Folders || t == FeedbackItems ==> |specs| > 0 && specs[0].target == t
  {
    match t
    case Organizations => [ChildSpec("projects", Projects), ChildSpec("users", Users)]
    case Projects => [ChildSpec("folders", Folders), ChildSpec("files", Files)]
    case Folders => [ChildSpec("folders", Folders), ChildSpec("files", Files)]
    case Files => [ChildSpec("revision_clusters", RevisionClusters), ChildSpec("revisions", Revisions)]
    case RevisionClusters => [ChildSpec("revisions", Revisions)]
    case Revisions => [ChildSpec("previews", Previews)]
    case Previews => [ChildSpec("feedback_items", FeedbackItems)]
    case FeedbackItems => [ChildSpec("replies", FeedbackItems)]
    case Users => []
  }

  /** Types whose `processNode` hook makes a directory; the other two return the parent path. */
  predicate CreatesDirectory(t: EntityType) {
    t != RevisionClusters && t != FeedbackItems
  }

  type Key = (EntityType, Id)

  /** Entities by type and id: the mock API, and the tree index (`treeObjects`) the loader fills. */
  type Store = map<Key, Entity>

  function Lookup(m: Store, k: Key): Option<Entity> {
    if k in m then Some(m[k]) else None
  }
}

=== FILE: feedback.dfy ===
/**
 * `writeFeedback`: a feedback item becomes one markdown line, followed by
 * the lines of its resolvable replies, one level deeper, in reply order.
 * The lines are returned rather than appended to `comments.md`.
 */
module Feedback {
  import opened Wrappers
  import opened Entities

  /** `Array(depth + 1).join('  ')`: two spaces per level. */
  function Indent(depth: nat): string {
    if depth == 0 then "" else "  " + Indent(depth - 1)
  }

  function Digit(d: nat): char
    requires d < 10
  {
    "0123456789"[d]
  }

  /** The decimal text a string concatenation prints for a number. */
  function Decimal(n: nat): string
    decreases n
  {
    if n < 10 then [Digit(n)] else Decimal(n / 10) + [Digit(n % 10)]
  }

  predicate IsDigit(c: char) {
    '0' <= c <= '9'
  }

  predicate AllDigits(s: string) {
    forall i :: 0 <= i < |s| ==> IsDigit(s[i])
  }

  /**
   * Reads a run of decimal digits back as a number, most significant digit
   * first: the reading a person makes of the number in front of a comment.
   */
  function ParseDecimal(s: string): nat
    requires AllDigits(s)
    decreases |s|
  {
    if s == [] then 0 else 10 * ParseDecimal(s[..|s| - 1]) + ((s[|s| - 1] as int) - ('0' as int))
  }

  /** The longest run of digits a string starts with. */
  function TakeDigits(s: string): (d: string)
    ensures AllDigits(d) && d <= s
    ensures |d| < |s| ==> !IsDigit(s[|d|])
    decreases |s|
  {
    if s == [] || !IsDigit(s[0]) then [] else [s[0]] + TakeDigits(s[1..])
  }

  /** How many spaces a line starts with. */
  function LeadingSpaces(s: string): nat {
    if s == [] || s[0] != ' ' then 0 else 1 + LeadingSpaces(s[1..])
  }

  lemma {:induction false} IndentLength(depth: nat)
    ensures |Indent(depth)| == 2 * depth
    decreases depth
  {
    if depth > 0 {
      IndentLength(depth - 1);
    }
  }

  lemma {:induction false} IndentThenText(depth: nat, rest: string)
    requires |rest| > 0 && rest[0] != ' '
    ensures LeadingSpaces(Indent(depth) + rest) == 2 * depth
    decreases depth
  {
    if depth > 0 {
      var s := Indent(depth) + rest;
      assert s == "  " + (Indent(depth - 1) + rest);
      assert s[2..] == Indent(depth - 1) + rest;
      IndentThenText(depth - 1, rest);
    }
  }

  lemma {:induction false} DecimalDigits(n: nat)
    ensures |Decimal(n)| > 0 && AllDigits(Decimal(n))
    decreases n
  {
    if n >= 10 {
      DecimalDigits(n / 10);
    }
  }

  /** `Decimal` and `ParseDecimal` are inverse: the printed number reads back as itself. */
  lemma {:induction false} DecimalRoundTrip(n: nat)
    ensures AllDigits(Decimal(n)) && ParseDecimal(Decimal(n)) == n
    decreases n
  {
    DecimalDigits(n);
    var s := Decimal(n);
    if n < 10 {
      assert s[..0] == [];
      assert s[0] == "0123456789"[n];
    } else {
      DecimalRoundTrip(n / 10);
      assert s[..|s| - 1] == Decimal(n / 10);
      assert s[|s| - 1] == "0123456789"[n % 10];
    }
  }

  /** A run of digits followed by a non-digit is exactly what `TakeDigits` takes. */
  lemma {:induction false} TakeDigitsOf(d: string, rest: string)
    requires AllDigits(d)
    requires rest == [] || !IsDigit(rest[0])
    ensures TakeDigits(d + rest) == d
    decreases |d|
  {
    if d == [] {
      assert d + rest == rest;
    } else {
      assert (d + rest)[1..] == d[1..] + rest;
      TakeDigitsOf(d[1..], rest);
    }
  }

  /** The author's name and e-mail in bold, then the creation time in italics. */
  function Byline(author: Entity, item: Entity): string {
    "**" + Field(author, "first_name") + " " + Field(author, "last_name") + " (" + Field(author, "email") + ")**: " +
    "*" + Field(item, "created_at") + "* - "
  }

  /**
   * One comment: `depth` levels of indentation, the 1-based position, the
   * author's name and e-mail in bold, the creation time in italics, the
   * message, and a newline.
   */
  function CommentLine(depth: nat, position: nat, author: Entity, item: Entity): (line: string)
    ensures LeadingSpaces(line) == 2 * depth
    ensures |line| > 0 && line[|line| - 1] == '\n'
  {
    var text := Decimal(position + 1) + ". " + Byline(author, item) + Field(item, "message") + "\n";
    DecimalDigits(position + 1);
    IndentThenText(depth, text);
    Indent(depth) + text
  }

  /**
   * After its indentation a comment line starts with the 1-based position
   * and `. **` (the opening of the bold author), and it ends with the
   * item's message and a newline.
   */
  lemma CommentLineShape(depth: nat, position: nat, author: Entity, item: Entity)
    ensures var line := CommentLine(depth, position, author, item);
            |line| >= 2 * depth && Decimal(position + 1) + ". **" <= line[2 * depth..]
    ensures var line, tail := CommentLine(depth, position, author, item), Field(item, "message") + "\n";
            |line| >= |tail| && line[|line| - |tail|..] == tail
  {
    IndentLength(depth);
    var byline := Byline(author, item);
    assert "**" <= byline by {
      assert byline[0] == '*' && byline[1] == '*';
    }
    CommentLineParts(Indent(depth), Decimal(position + 1), byline, Field(item, "message"));
  }

  lemma CommentLineParts(indent: string, number: string, byline: string, message: string)
    requires "**" <= byline
    ensures var line := indent + (number + ". " + byline + message + "\n");
            number + ". **" <= line[|indent|..] &&
            line[|line| - |message + "\n"|..] == message + "\n"
  {
    var line := indent + (number + ". " + byline + message + "\n");
    assert line[|indent|..] == number + ". " + byline + message + "\n";
    assert line[|line| - |message + "\n"|..] == message + "\n";
  }

  /**
   * Reading the digits after the indentation of a comment line gives back
   * its 1-based position.
   */
  lemma CommentNumber(depth: nat, position: nat, author: Entity, item: Entity)
    ensures var line := CommentLine(depth, position, author, item);
            |line| >= 2 * depth && ParseDecimal(TakeDigits(line[2 * depth..])) == position + 1
  {
    var line := CommentLine(depth, position, author, item);
    var d := Decimal(position + 1);
    CommentLineShape(depth, position, author, item);
    DecimalRoundTrip(position + 1);
    var s := line[2 * depth..];
    assert d + ". **" <= s;
    assert s == d + s[|d|..];
    assert s[|d|] == '.';
    TakeDigitsOf(d, s[|d|..]);
  }

  /** `treeObjects['users'][feedbackNode.links.user]`. */
  function Author(index: Store, item: Entity): Option<Entity> {
    match item.userLink
    case None => None
    case Some(u) => Lookup(index, (Users, u))
  }

  /**
   * `writeFeedback(item, path, position, depth)`. An item whose author is
   * not indexed throws (`user.first_name` of undefined), and so does a reply
   * chain deeper than `fuel` (the call stack): the output stops there.
   * The item's own line comes first at exactly `depth` levels, and every
   * line after it belongs to a reply, strictly deeper.
   */
  function Render(index: Store, item: Entity, position: nat, depth: nat, fuel: nat): (r: Emitted<string>)
    ensures |r.items| > 0 ==> LeadingSpaces(r.items[0]) == 2 * depth
    ensures forall i :: 0 < i < |r.items| ==> LeadingSpaces(r.items[i]) > 2 * depth
    ensures !r.halted ==> |r.items| > 0
    decreases fuel, 0, 0
  {
    if fuel == 0 then Emitted([], true)
    else
      match Author(index, item)
      case None => Emitted([], true)
      case Some(author) =>
        var replies := RenderReplies(index, Links(item, "replies"), 0, depth + 1, fuel - 1);
        var r := Then(Emit([CommentLine(depth, position, author, item)]), replies);
        assert forall i :: 0 < i < |r.items| ==> r.items[i] == replies.items[i - 1];
        r
  }

  /** The reply with id `id` at list position `position`, or nothing if it is not indexed. */
  function RenderReply(index: Store, id: Id, position: nat, depth: nat, fuel: nat): (r: Emitted<string>)
    ensures forall i :: 0 <= i < |r.items| ==> LeadingSpaces(r.items[i]) >= 2 * depth
    decreases fuel, 0, 1
  {
    match Lookup(index, (FeedbackItems, id))
    case None => Done()
    case Some(reply) => Render(index, reply, position, depth, fuel)
  }

  /**
   * `replies.forEach((r, i) => …)`: each reply is numbered by its position
   * in the list, starting at `from`, whether or not earlier ones were skipped.
   */
  function RenderReplies(index: Store, ids: seq<Id>, from: nat, depth: nat, fuel: nat): (r: Emitted<string>)
    ensures forall i :: 0 <= i < |r.items| ==> LeadingSpaces(r.items[i]) >= 2 * depth
    decreases fuel, 1, |ids|
  {
    if ids == [] then Done()
    else
      var first := RenderReply(index, ids[0], from, depth, fuel);
      var rest := RenderReplies(index, ids[1..], from + 1, depth, fuel);
      var r := Then(first, rest);
      assert forall i :: |first.items| <= i < |r.items| ==> r.items[i] == rest.items[i - |first.items|];
      r
  }

  /** Rendering a list in two parts: the second part is numbered from where the first ends. */
  lemma {:induction false} RenderRepliesSplit(index: Store, a: seq<Id>, b: seq<Id>, from: nat, depth: nat, fuel: nat)
    ensures RenderReplies(index, a + b, from, depth, fuel) ==
            Then(RenderReplies(index, a, from, depth, fuel), RenderReplies(index, b, from + |a|, depth, fuel))
    decreases |a|
  {
    if a == [] {
      assert a + b == b;
      ThenDone(RenderReplies(index, b, from, depth, fuel));
    } else {
      assert (a + b)[0] == a[0] && (a + b)[1..] == a[1..] + b;
      RenderRepliesSplit(index, a[1..], b, from + 1, depth, fuel);
      ThenAssoc(RenderReply(index, a[0], from, depth, fuel),
                RenderReplies(index, a[1..], from + 1, depth, fuel),
                RenderReplies(index, b, from + |a|, depth, fuel));
    }
  }

  /**
   * The reply at list position `j` is rendered as item number `j + 1`, after
   * everything before it and before everything after it, even when earlier
   * replies are skipped because they are not indexed.
   */
  lemma ReplyNumberedByPosition(index: Store, ids: seq<Id>, j: nat, depth: nat, fuel: nat)
    requires j < |ids|
    ensures RenderReplies(index, ids, 0, depth, fuel) ==
            Then(Then(RenderReplies(index, ids[..j], 0, depth, fuel), RenderReply(index, ids[j], j, depth, fuel)),
                 RenderReplies(index, ids[j + 1..], j + 1, depth, fuel))
  {
    var before, tail := ids[..j], [ids[j]] + ids[j + 1..];
    assert ids == before + tail;
    SplitAt(index, before, tail, j, depth, fuel);
    RenderRepliesCons(index, ids[j], ids[j + 1..], j, depth, fuel);
    ThenAssoc(RenderReplies(index, before, 0, depth, fuel), RenderReply(index, ids[j], j, depth, fuel),
              RenderReplies(index, ids[j + 1..], j + 1, depth, fuel));
  }

  lemma SplitAt(index: Store, a: seq<Id>, b: seq<Id>, mid: nat, depth: nat, fuel: nat)
    requires mid == |a|
    ensures RenderReplies(index, a + b, 0, depth, fuel) ==
            Then(RenderReplies(index, a, 0, depth, fuel), RenderReplies(index, b, mid, depth, fuel))
  {
    RenderRepliesSplit(index, a, b, 0, depth, fuel);
  }

  lemma RenderRepliesCons(index: Store, id: Id, rest: seq<Id>, from: nat, depth: nat, fuel: nat)
    ensures RenderReplies(index, [id] + rest, from, depth, fuel) ==
            Then(RenderReply(index, id, from, depth, fuel), RenderReplies(index, rest, from + 1, depth, fuel))
  {
    var ids := [id] + rest;
    assert ids[0] == id && ids[1..] == rest;
  }

  /** An id that is not indexed contributes nothing and shifts no later number. */
  lemma UnindexedReplySkipped(index: Store, before: seq<Id>, id: Id, after: seq<Id>, depth: nat, fuel: nat)
    requires (FeedbackItems, id) !in index
    ensures RenderReplies(index, before + [id] + after, 0, depth, fuel) ==
            Then(RenderReplies(index, before, 0, depth, fuel), RenderReplies(index, after, |before| + 1, depth, fuel))
  {
    var ids := before + [id] + after;
    assert ids[..|before|] == before && ids[|before|] == id && ids[|before| + 1..] == after;
    ReplyNumberedByPosition(index, ids, |before|, depth, fuel);
    ThenDone(RenderReplies(index, before, 0, depth, fuel));
  }

  /** An item whose author is indexed: its line, then its replies one level deeper. */
  lemma RenderStep(index: Store, item: Entity, author: Entity, position: nat, depth: nat, fuel: nat, replies: seq<string>)
    requires fuel > 0 && Author(index, item) == Some(author)
    requires RenderReplies(index, Links(item, "replies"), 0, depth + 1, fuel - 1) == Emit(replies)
    ensures Render(index, item, position, depth, fuel) == Emit([CommentLine(depth, position, author, item)] + replies)
  {
  }

  /** A list holding one indexed reply renders as that reply. */
  lemma RenderOneReply(index: Store, reply: Entity, from: nat, depth: nat, fuel: nat)
    requires Lookup(index, (FeedbackItems, reply.id)) == Some(reply)
    ensures RenderReplies(index, [reply.id], from, depth, fuel) == Render(index, reply, from, depth, fuel)
  {
    RenderRepliesCons(index, reply.id, [], from, depth, fuel);
    assert [reply.id] + [] == [reply.id];
    ThenDone(Render(index, reply, from, depth, fuel));
  }

  /** An item with no replies renders as its own line alone. */
  lemma LeafRenders(index: Store, item: Entity, author: Entity, position: nat, depth: nat, fuel: nat)
    requires fuel > 0 && Links(item, "replies") == []
    requires Author(index, item) == Some(author)
    ensures Render(index, item, position, depth, fuel) == Emit([CommentLine(depth, position, author, item)])
  {
    var line := CommentLine(depth, position, author, item);
    assert RenderReplies(index, Links(item, "replies"), 0, depth + 1, fuel - 1) == Emit([]);
    RenderStep(index, item, author, position, depth, fuel, []);
    assert [line] + [] == [line];
  }

  /** A reply with a single reply of its own, which has none: two lines, the second one level deeper. */
  lemma ReplyWithOneReply(index: Store, x: Entity, y: Entity, author: Entity, position: nat, depth: nat, fuel: nat)
    requires fuel >= 2
    requires Links(x, "replies") == [y.id] && Links(y, "replies") == []
    requires Author(index, x) == Some(author) && Author(index, y) == Some(author)
    requires Lookup(index, (FeedbackItems, y.id)) == Some(y)
    ensures Render(index, x, position, depth, fuel) ==
            Emit([CommentLine(depth, position, author, x), CommentLine(depth + 1, 0, author, y)])
  {
    var ly := CommentLine(depth + 1, 0, author, y);
    LeafRenders(index, y, author, 0, depth + 1, fuel - 1);
    assert RenderReplies(index, Links(x, "replies"), 0, depth + 1, fuel - 1) == Emit([ly]) by {
      RenderOneReply(index, y, 0, depth + 1, fuel - 1);
    }
    var lx := CommentLine(depth, position, author, x);
    RenderStep(index, x, author, position, depth, fuel, [ly]);
    Pair(lx, ly);
  }

  lemma Pair<T>(a: T, b: T)
    ensures [a] + [b] == [a, b]
  {
  }

  /** Two indexed replies: the first one's thread, numbered 1, then the second's, numbered 2. */
  lemma TwoReplies(index: Store, a: Entity, b: Entity, depth: nat, fuel: nat, la: seq<string>, lb: seq<string>)
    requires Lookup(index, (FeedbackItems, a.id)) == Some(a) && Lookup(index, (FeedbackItems, b.id)) == Some(b)
    requires Render(index, a, 0, depth, fuel) == Emit(la) && Render(index, b, 1, depth, fuel) == Emit(lb)
    ensures RenderReplies(index, [a.id, b.id], 0, depth, fuel) == Emit(la + lb)
  {
    RenderOneReply(index, b, 1, depth, fuel);
    RenderRepliesCons(index, a.id, [b.id], 0, depth, fuel);
    assert [a.id] + [b.id] == [a.id, b.id];
  }

  /**
   * A comment with two replies, each answered once, renders as five lines
   * in depth-first pre-order: the comment, then each reply one level deeper
   * and numbered by its position, each followed by its own reply one more
   * level deeper.
   */
  lemma TwoThreads(index: Store, root: Entity, a: Entity, a1: Entity, b: Entity, b1: Entity, author: Entity,
                   position: nat, depth: nat, fuel: nat)
    requires fuel >= 3
    requires Links(root, "replies") == [a.id, b.id]
    requires Links(a, "replies") == [a1.id] && Links(b, "replies") == [b1.id]
    requires Links(a1, "replies") == [] && Links(b1, "replies") == []
    requires Author(index, root) == Some(author) && Author(index, a) == Some(author) && Author(index, b) == Some(author)
    requires Author(index, a1) == Some(author) && Author(index, b1) == Some(author)
    requires Lookup(index, (FeedbackItems, a.id)) == Some(a) && Lookup(index, (FeedbackItems, b.id)) == Some(b)
    requires Lookup(index, (FeedbackItems, a1.id)) == Some(a1) && Lookup(index, (FeedbackItems, b1.id)) == Some(b1)
    ensures Render(index, root, position, depth, fuel) ==
            Emit([CommentLine(depth, position, author, root),
                  CommentLine(depth + 1, 0, author, a), CommentLine(depth + 2, 0, author, a1),
                  CommentLine(depth + 1, 1, author, b), CommentLine(depth + 2, 0, author, b1)])
  {
    var la, la1 := CommentLine(depth + 1, 0, author, a), CommentLine(depth + 2, 0, author, a1);
    var lb, lb1 := CommentLine(depth + 1, 1, author, b), CommentLine(depth + 2, 0, author, b1);
    var top := CommentLine(depth, position, author, root);
    assert RenderReplies(index, [a.id, b.id], 0, depth + 1, fuel - 1) == Emit([la, la1] + [lb, lb1]) by {
      ReplyWithOneReply(index, a, a1, author, 0, depth + 1, fuel - 1);
      ReplyWithOneReply(index, b, b1, author, 1, depth + 1, fuel - 1);
      TwoReplies(index, a, b, depth + 1, fuel - 1, [la, la1], [lb, lb1]);
    }
    assert Render(index, root, position, depth, fuel) == Emit([top] + ([la, la1] + [lb, lb1])) by {
      RenderStep(index, root, author, position, depth, fuel, [la, la1] + [lb, lb1]);
    }
    ThreadLines(top, la, la1, lb, lb1);
  }

  lemma ThreadLines(top: string, la: string, la1: string, lb: string, lb1: string)
    ensures [top] + ([la, la1] + [lb, lb1]) == [top, la, la1, lb, lb1]
  {
  }

  /** The comment threads of a preview: its `feedback_items`, numbered from 1, at depth 0. */
  function PreviewComments(index: Store, preview: Entity, fuel: nat): Emitted<string> {
    RenderReplies(index, Links(preview, "feedback_items"), 0, 0, fuel)
  }

  /**
   * A preview's comments are its threads in link order: the feedback item
   * at position `j` opens thread number `j + 1` at depth 0, after the
   * threads before it and before the threads after it.
   */
  lemma PreviewThreadsInOrder(index: Store, preview: Entity, j: nat, fuel: nat)
    requires j < |Links(preview, "feedback_items")|
    ensures var ids := Links(preview, "feedback_items");
            PreviewComments(index, preview, fuel) ==
              Then(Then(RenderReplies(index, ids[..j], 0, 0, fuel), RenderReply(index, ids[j], j, 0, fuel)),
                   RenderReplies(index, ids[j + 1..], j + 1, 0, fuel))
  {
    ReplyNumberedByPosition(index, Links(preview, "feedback_items"), j, 0, fuel);
  }
}

=== FILE: fetch.dfy ===
/**
 * `fetchFromApi`: cut the ids to `testingLimit`, split them into chunks of
 * `maxIdsPerRequest`, request each chunk, and flatten the responses. The
 * remote API is a mock store from (type, id) to entity.
 */
module Fetch {
  import opened Wrappers
  import opened Entities
  import opened Args

  function Concat<T>(ss: seq<seq<T>>): seq<T> {
    if ss == [] then [] else ss[0] + Concat(ss[1..])
  }

  /** `ids.slice(0, end)`: a negative end counts back from the end of the list. */
  function SliceTo(ids: seq<Id>, end: int): seq<Id> {
    if end >= 0 then ids[..if end < |ids| then end else |ids|]
    else ids[..if |ids| + end > 0 then |ids| + end else 0]
  }

  /**
   * `if(args.testingLimit) ids = ids.slice(0, args.testingLimit)`: always a
   * prefix of the ids; the whole list when the limit is 0, the first `limit`
   * ids when it is positive, all but the last `-limit` when it is negative.
   */
  function Truncate(ids: seq<Id>, testingLimit: int): (r: seq<Id>)
    ensures |r| <= |ids| && r == ids[..|r|]
    ensures testingLimit == 0 ==> r == ids
    ensures testingLimit > 0 ==> |r| == if testingLimit < |ids| then testingLimit else |ids|
    ensures testingLimit < 0 ==> |r| == if |ids| + testingLimit > 0 then |ids| + testingLimit else 0
  {
    if testingLimit == 0 then ids else SliceTo(ids, testingLimit)
  }

  /** The chunk size `_.chunk` uses: a size below one is read as one. */
  function ChunkSize(maxIdsPerRequest: int): nat {
    if maxIdsPerRequest >= 1 then maxIdsPerRequest else 1
  }

  /**
   * `_.chunk(ids, maxIdsPerRequest)`: consecutive chunks that concatenate
   * back to the ids, each holding between one and `ChunkSize` ids, all but
   * the last holding exactly `ChunkSize`; so there are ceil(n / size) of
   * them, stated without division.
   */
  function Chunks(ids: seq<Id>, maxIdsPerRequest: int): (chunks: seq<seq<Id>>)
    ensures Concat(chunks) == ids
    ensures forall i :: 0 <= i < |chunks| ==> 1 <= |chunks[i]| <= ChunkSize(maxIdsPerRequest)
    ensures forall i :: 0 <= i < |chunks| - 1 ==> |chunks[i]| == ChunkSize(maxIdsPerRequest)
    ensures (|chunks| - 1) * ChunkSize(maxIdsPerRequest) < |ids| <= |chunks| * ChunkSize(maxIdsPerRequest)
    decreases |ids|
  {
    var n := ChunkSize(maxIdsPerRequest);
    if |ids| == 0 then []
    else if |ids| <= n then
      assert Concat([ids]) == ids + Concat([]);
      [ids]
    else
      var rest := Chunks(ids[n..], maxIdsPerRequest);
      ChunksCons(ids, n, rest);
      [ids[..n]] + rest
  }

  /** The step of `Chunks`: one full chunk in front of the chunks of the rest. */
  lemma ChunksCons(ids: seq<Id>, n: nat, rest: seq<seq<Id>>)
    requires 1 <= n < |ids|
    requires Concat(rest) == ids[n..]
    requires forall i :: 0 <= i < |rest| ==> 1 <= |rest[i]| <= n
    requires forall i :: 0 <= i < |rest| - 1 ==> |rest[i]| == n
    requires (|rest| - 1) * n < |ids| - n <= |rest| * n
    ensures Concat([ids[..n]] + rest) == ids
    ensures forall i :: 0 <= i < |rest| + 1 ==> 1 <= |([ids[..n]] + rest)[i]| <= n
    ensures forall i :: 0 <= i < |rest| ==> |([ids[..n]] + rest)[i]| == n
    ensures |rest| * n < |ids| <= (|rest| + 1) * n
  {
    var all := [ids[..n]] + rest;
    assert all[1..] == rest;
    assert ids[..n] + ids[n..] == ids;
    assert (|rest| - 1) * n + n == |rest| * n;
    assert |rest| * n + n == (|rest| + 1) * n;
  }

  /** The mock endpoint: the entities the API holds for the requested ids, in request order. */
  function Response(api: Store, t: EntityType, ids: seq<Id>): (items: seq<Entity>)
    ensures |items| <= |ids|
  {
    if ids == [] then []
    else (if (t, ids[0]) in api then [api[(t, ids[0])]] else []) + Response(api, t, ids[1..])
  }

  /** Every entity returned was asked for, and every id asked for that the API holds is answered. */
  lemma {:induction false} ResponseContents(api: Store, t: EntityType, ids: seq<Id>)
    ensures forall e :: e in Response(api, t, ids) ==> exists id :: id in ids && Lookup(api, (t, id)) == Some(e)
    ensures forall id :: id in ids && (t, id) in api ==> api[(t, id)] in Response(api, t, ids)
    decreases |ids|
  {
    if ids != [] {
      ResponseContents(api, t, ids[1..]);
      assert forall id :: id in ids[1..] ==> id in ids;
      assert forall id :: id in ids ==> id == ids[0] || id in ids[1..];
    }
  }

  lemma {:induction false} ResponseAppend(api: Store, t: EntityType, a: seq<Id>, b: seq<Id>)
    ensures Response(api, t, a + b) == Response(api, t, a) + Response(api, t, b)
    decreases |a|
  {
    if a != [] {
      assert (a + b)[1..] == a[1..] + b;
      ResponseAppend(api, t, a[1..], b);
    } else {
      assert a + b == b;
    }
  }

  /** One response per chunk, in chunk order. */
  function Responses(api: Store, t: EntityType, chunks: seq<seq<Id>>): seq<seq<Entity>> {
    if chunks == [] then [] else [Response(api, t, chunks[0])] + Responses(api, t, chunks[1..])
  }

  lemma {:induction false} FlattenResponses(api: Store, t: EntityType, chunks: seq<seq<Id>>)
    ensures Concat(Responses(api, t, chunks)) == Response(api, t, Concat(chunks))
    decreases |chunks|
  {
    if chunks != [] {
      FlattenResponses(api, t, chunks[1..]);
      ResponseAppend(api, t, chunks[0], Concat(chunks[1..]));
    }
  }

  /**
   * `fetchFromApi`: batching is invisible in the result. The flattened
   * per-chunk responses are exactly what one request for all the truncated
   * ids would return, in the same order, with nothing lost or repeated.
   */
  function FetchFromApi(api: Store, cfg: Config, t: EntityType, ids: seq<Id>): (items: seq<Entity>)
    ensures items == Response(api, t, Truncate(ids, cfg.testingLimit))
  {
    var chunks := Chunks(Truncate(ids, cfg.testingLimit), cfg.maxIdsPerRequest);
    FlattenResponses(api, t, chunks);
    Concat(Responses(api, t, chunks))
  }
}

=== FILE: loader.dfy ===
/**
 * `fetchApiItems` and `indexTreeItems`: load one level of entities, store
 * them in the index by type and id, then load each declared child relation
 * with the ids that relation lists across the level.
 *
 * The sibling loads the source starts together are run here one after the
 * other, in declaration order. Recursion depth is bounded by `fuel`: a load
 * that would go deeper does not finish (`None`), which is what a cyclic
 * folder or reply structure does in the source.
 */
module Loader {
  import opened Wrappers
  import opened Entities
  import opened Args
  import opened Fetch

  /** The last entity of `items` that has id `id`, found by looking past the first item first. */
  function LastWithId(items: seq<Entity>, id: Id): (r: Option<Entity>)
    ensures r.None? <==> forall i :: 0 <= i < |items| ==> items[i].id != id
    ensures r.Some? ==> r.value in items && r.value.id == id
    decreases |items|
  {
    if items == [] then None
    else
      var later := LastWithId(items[1..], id);
      assert forall i :: 0 < i < |items| ==> items[i] == items[1..][i - 1];
      if later.Some? then later
      else if items[0].id == id then Some(items[0])
      else None
  }

  /** What `LastWithId` finds is followed by no other item with that id. */
  lemma {:induction false} LastWithIdIsLast(items: seq<Entity>, id: Id)
    requires LastWithId(items, id).Some?
    ensures exists j :: 0 <= j < |items| && items[j] == LastWithId(items, id).value &&
                        forall i :: j < i < |items| ==> items[i].id != id
    decreases |items|
  {
    var later := LastWithId(items[1..], id);
    if later.Some? {
      LastWithIdIsLast(items[1..], id);
      var j :| 0 <= j < |items| - 1 && items[1..][j] == later.value &&
               forall i :: j < i < |items| - 1 ==> items[1..][i].id != id;
      assert items[j + 1] == later.value;
      forall i | j + 1 < i < |items|
        ensures items[i].id != id
      {
        assert items[i] == items[1..][i - 1];
      }
    } else {
      assert forall i :: 0 < i < |items| ==> items[i] == items[1..][i - 1];
      assert items[0] == LastWithId(items, id).value;
    }
  }

  /**
   * `indexTreeItems`: each item is stored under its type at its own id, in
   * list order. A key of that type ends up holding the LAST item with that
   * id; keys no item has, and keys of other types, keep what they held.
   */
  function IndexItems(idx: Store, t: EntityType, items: seq<Entity>): (r: Store)
    ensures forall k :: Lookup(r, k) == (if k.0 == t && LastWithId(items, k.1).Some? then LastWithId(items, k.1) else Lookup(idx, k))
    ensures idx.Keys <= r.Keys
    decreases |items|
  {
    if items == [] then idx
    else
      assert forall id :: LastWithId(items, id) == (if LastWithId(items[1..], id).Some? then LastWithId(items[1..], id) else if items[0].id == id then Some(items[0]) else None);
      IndexItems(idx[(t, items[0].id) := items[0]], t, items[1..])
  }

  /** `_.flatten(items.map(c.get))`: the ids one relation lists, item after item. */
  function Gather(items: seq<Entity>, relation: string): seq<Id> {
    if items == [] then [] else Links(items[0], relation) + Gather(items[1..], relation)
  }

  lemma {:induction false} GatherContains(items: seq<Entity>, relation: string, e: Entity)
    requires e in items
    ensures forall id :: id in Links(e, relation) ==> id in Gather(items, relation)
    decreases |items|
  {
    if items[0] != e {
      GatherContains(items[1..], relation, e);
    }
  }

  /** What `fetchFromApi` returns for a level, as one request for the truncated ids. */
  function Fetched(api: Store, cfg: Config, t: EntityType, ids: seq<Id>): seq<Entity> {
    Response(api, t, Truncate(ids, cfg.testingLimit))
  }

  /** The load sees exactly what the chunked `fetchFromApi` returns. */
  lemma FetchedIsFetchFromApi(api: Store, cfg: Config, t: EntityType, ids: seq<Id>)
    ensures Fetched(api, cfg, t, ids) == FetchFromApi(api, cfg, t, ids)
  {
  }

  /**
   * `fetchApiItems(itemType, ids)`: nothing is requested for an empty id
   * list; otherwise the fetched level is indexed and every child relation of
   * the type is loaded in turn.
   */
  function Load(api: Store, cfg: Config, t: EntityType, ids: seq<Id>, idx: Store, fuel: nat): Option<Store>
    decreases fuel, 0
  {
    if |ids| == 0 then Some(idx)
    else if fuel == 0 then None
    else
      var items := Fetched(api, cfg, t, ids);
      LoadChildren(api, cfg, items, Children(t), IndexItems(idx, t, items), fuel - 1)
  }

  /** `Q.all(children.map(c => fetchApiItems(c.type, _.flatten(items.map(c.get)))))`, in list order. */
  function LoadChildren(api: Store, cfg: Config, items: seq<Entity>, specs: seq<ChildSpec>, idx: Store, fuel: nat): Option<Store>
    decreases fuel, 1 + |specs|
  {
    if specs == [] then Some(idx)
    else
      match Load(api, cfg, specs[0].target, Gather(items, specs[0].relation), idx, fuel)
      case None => None
      case Some(next) => LoadChildren(api, cfg, items, specs[1..], next, fuel)
  }

  /** The whole load phase: the organization named on the command line, into an empty index. */
  function ExportIndex(api: Store, cfg: Config, fuel: nat): Option<Store> {
    Load(api, cfg, Organizations, [cfg.organizationId], map[], fuel)
  }

  /** The mock API answers each key with an entity carrying that id. */
  ghost predicate WellFormed(api: Store) {
    forall k :: k in api ==> api[k].id == k.1
  }

  /** Every entry of the index is the API's entity for its key. */
  ghost predicate Consistent(api: Store, idx: Store) {
    forall k :: k in idx ==> k in api && idx[k] == api[k]
  }

  lemma IndexResponseConsistent(api: Store, t: EntityType, ids: seq<Id>, idx: Store)
    requires WellFormed(api) && Consistent(api, idx)
    ensures Consistent(api, IndexItems(idx, t, Response(api, t, ids)))
    ensures forall id :: id in ids && (t, id) in api ==> (t, id) in IndexItems(idx, t, Response(api, t, ids))
  {
    var items := Response(api, t, ids);
    var r := IndexItems(idx, t, items);
    ResponseContents(api, t, ids);
    forall k | k in r
      ensures k in api && r[k] == api[k]
    {
      assert Lookup(r, k) == Some(r[k]);
      if k.0 == t && LastWithId(items, k.1).Some? {
        var e := r[k];
        assert e in items && e.id == k.1;
        var id :| id in ids && Lookup(api, (t, id)) == Some(e);
      } else {
        assert Lookup(idx, k) == Some(r[k]);
      }
    }
    forall id | id in ids && (t, id) in api
      ensures (t, id) in r
    {
      var e := api[(t, id)];
      var i :| 0 <= i < |items| && items[i] == e;
      assert LastWithId(items, id).Some?;
      assert Lookup(r, (t, id)).Some?;
    }
  }

  /**
   * The index is append-only during the load: no key is ever removed. With
   * a well-formed API, every entry the load stores is the API's entity for
   * its key, so the order in which sibling loads run cannot change a value.
   */
  lemma {:induction false} LoadSound(api: Store, cfg: Config, t: EntityType, ids: seq<Id>, idx: Store, fuel: nat)
    requires Load(api, cfg, t, ids, idx, fuel).Some?
    ensures idx.Keys <= Load(api, cfg, t, ids, idx, fuel).value.Keys
    ensures WellFormed(api) && Consistent(api, idx) ==> Consistent(api, Load(api, cfg, t, ids, idx, fuel).value)
    decreases fuel, 0
  {
    if |ids| > 0 {
      var items := Fetched(api, cfg, t, ids);
      var idx1 := IndexItems(idx, t, items);
      if WellFormed(api) && Consistent(api, idx) {
        IndexResponseConsistent(api, t, Truncate(ids, cfg.testingLimit), idx);
      }
      LoadChildrenSound(api, cfg, items, Children(t), idx1, fuel - 1);
    }
  }

  lemma {:induction false} LoadChildrenSound(api: Store, cfg: Config, items: seq<Entity>, specs: seq<ChildSpec>, idx: Store, fuel: nat)
    requires LoadChildren(api, cfg, items, specs, idx, fuel).Some?
    ensures idx.Keys <= LoadChildren(api, cfg, items, specs, idx, fuel).value.Keys
    ensures WellFormed(api) && Consistent(api, idx) ==> Consistent(api, LoadChildren(api, cfg, items, specs, idx, fuel).value)
    decreases fuel, 1 + |specs|
  {
    if specs != [] {
      var s := specs[0];
      LoadSound(api, cfg, s.target, Gather(items, s.relation), idx, fuel);
      var next := Load(api, cfg, s.target, Gather(items, s.relation), idx, fuel).value;
      LoadChildrenSound(api, cfg, items, specs[1..], next, fuel);
    }
  }

  /** `idx` overridden by the result of a load, or no result when the load does not finish. */
  function Overlay(idx: Store, o: Option<Store>): Option<Store> {
    if o.Some? then Some(idx + o.value) else None
  }

  lemma StoreExtensional(a: Store, b: Store)
    requires forall k :: Lookup(a, k) == Lookup(b, k)
    ensures a == b
  {
    forall k
      ensures k in a <==> k in b
    {
      assert Lookup(a, k) == Lookup(b, k);
    }
    forall k | k in a
      ensures a[k] == b[k]
    {
      assert Lookup(a, k) == Lookup(b, k);
    }
  }

  /** Indexing a level writes the same entries whatever the index held before. */
  lemma IndexItemsFrame(idx: Store, base: Store, t: EntityType, items: seq<Entity>)
    ensures IndexItems(idx + base, t, items) == idx + IndexItems(base, t, items)
  {
    var a := IndexItems(idx + base, t, items);
    var b := idx + IndexItems(base, t, items);
    forall k
      ensures Lookup(a, k) == Lookup(b, k)
    {
      assert Lookup(a, k) == (if k.0 == t && LastWithId(items, k.1).Some? then LastWithId(items, k.1) else Lookup(idx + base, k));
    }
    StoreExtensional(a, b);
  }

  /**
   * The load only ever writes: what it writes, and whether it finishes, do
   * not depend on the index it starts from, whose entries it overrides.
   */
  lemma {:induction false} LoadFrame(api: Store, cfg: Config, t: EntityType, ids: seq<Id>, idx: Store, base: Store, fuel: nat)
    ensures Load(api, cfg, t, ids, idx + base, fuel) == Overlay(idx, Load(api, cfg, t, ids, base, fuel))
    decreases fuel, 0
  {
    if |ids| > 0 && fuel > 0 {
      var items := Fetched(api, cfg, t, ids);
      IndexItemsFrame(idx, base, t, items);
      LoadChildrenFrame(api, cfg, items, Children(t), idx, IndexItems(base, t, items), fuel - 1);
    }
  }

  lemma {:induction false} LoadChildrenFrame(api: Store, cfg: Config, items: seq<Entity>, specs: seq<ChildSpec>, idx: Store, base: Store, fuel: nat)
    ensures LoadChildren(api, cfg, items, specs, idx + base, fuel) == Overlay(idx, LoadChildren(api, cfg, items, specs, base, fuel))
    decreases fuel, 1 + |specs|
  {
    if specs != [] {
      var s := specs[0];
      LoadFrame(api, cfg, s.target, Gather(items, s.relation), idx, base, fuel);
      match Load(api, cfg, s.target, Gather(items, s.relation), base, fuel)
      case None =>
      case Some(next) =>
        LoadChildrenFrame(api, cfg, items, specs[1..], idx, next, fuel);
    }
  }

  /**
   * A load from any index finishes iff the same load from the empty index
   * does, and then yields the starting index overridden by what the load
   * from the empty index yields.
   */
  lemma LoadFromAnyIndex(api: Store, cfg: Config, t: EntityType, ids: seq<Id>, idx: Store, fuel: nat)
    ensures Load(api, cfg, t, ids, idx, fuel).Some? <==> Load(api, cfg, t, ids, map[], fuel).Some?
    ensures Load(api, cfg, t, ids, idx, fuel).Some? ==>
      Load(api, cfg, t, ids, idx, fuel).value == idx + Load(api, cfg, t, ids, map[], fuel).value
  {
    assert idx + map[] == idx;
    LoadFrame(api, cfg, t, ids, idx, map[], fuel);
  }

  /**
   * Two sibling loads, which the source starts together, give the same
   * index in either order when the API is well formed: both finish either
   * way, and every entry both write is the API's entity for its key.
   */
  lemma SiblingOrderIrrelevant(api: Store, cfg: Config, ta: EntityType, a: seq<Id>, tb: EntityType, b: seq<Id>, idx: Store, fuel: nat)
    requires WellFormed(api)
    requires Load(api, cfg, ta, a, idx, fuel).Some? && Load(api, cfg, tb, b, idx, fuel).Some?
    ensures Load(api, cfg, tb, b, Load(api, cfg, ta, a, idx, fuel).value, fuel).Some?
    ensures Load(api, cfg, ta, a, Load(api, cfg, tb, b, idx, fuel).value, fuel).Some?
    ensures Load(api, cfg, tb, b, Load(api, cfg, ta, a, idx, fuel).value, fuel).value ==
            Load(api, cfg, ta, a, Load(api, cfg, tb, b, idx, fuel).value, fuel).value
  {
    LoadFromAnyIndex(api, cfg, ta, a, idx, fuel);
    LoadFromAnyIndex(api, cfg, tb, b, idx, fuel);
    var ma := Load(api, cfg, ta, a, map[], fuel).value;
    var mb := Load(api, cfg, tb, b, map[], fuel).value;
    assert Load(api, cfg, tb, b, idx + ma, fuel) == Some(idx + ma + mb) by {
      LoadFromAnyIndex(api, cfg, tb, b, idx + ma, fuel);
    }
    assert Load(api, cfg, ta, a, idx + mb, fuel) == Some(idx + mb + ma) by {
      LoadFromAnyIndex(api, cfg, ta, a, idx + mb, fuel);
    }
    assert idx + ma + mb == idx + mb + ma by {
      assert Consistent(api, map[]);
      LoadSound(api, cfg, ta, a, map[], fuel);
      LoadSound(api, cfg, tb, b, map[], fuel);
      ConsistentUnionsCommute(api, idx, ma, mb);
    }
  }

  /** Two sets of entries that both agree with the API can be laid over an index in either order. */
  lemma ConsistentUnionsCommute(api: Store, idx: Store, ma: Store, mb: Store)
    requires Consistent(api, ma) && Consistent(api, mb)
    ensures idx + ma + mb == idx + mb + ma
  {
    var x, y := idx + ma + mb, idx + mb + ma;
    forall k
      ensures Lookup(x, k) == Lookup(y, k)
    {
      if k in ma && k in mb {
        assert ma[k] == api[k] == mb[k];
      }
    }
    StoreExtensional(x, y);
  }

  /**
   * One step of the load: an empty id list resolves at once with the index
   * unchanged; otherwise every entity the fetch returns ends up in the
   * index under its type and id, whatever the child loads do afterwards.
   */
  lemma LoadStep(api: Store, cfg: Config, t: EntityType, ids: seq<Id>, idx: Store, fuel: nat)
    requires WellFormed(api) && Consistent(api, idx)
    requires Load(api, cfg, t, ids, idx, fuel).Some?
    ensures ids == [] ==> Load(api, cfg, t, ids, idx, fuel).value == idx
    ensures forall e :: e in Fetched(api, cfg, t, ids) ==>
      Lookup(Load(api, cfg, t, ids, idx, fuel).value, (t, e.id)) == Some(e)
  {
    if ids != [] {
      var sent := Truncate(ids, cfg.testingLimit);
      var items := Fetched(api, cfg, t, ids);
      var idx1 := IndexItems(idx, t, items);
      var r := Load(api, cfg, t, ids, idx, fuel).value;
      IndexResponseConsistent(api, t, sent, idx);
      ResponseContents(api, t, sent);
      LoadChildrenSound(api, cfg, items, Children(t), idx1, fuel - 1);
      forall e | e in items
        ensures Lookup(r, (t, e.id)) == Some(e)
      {
        var id :| id in sent && Lookup(api, (t, id)) == Some(e);
        assert (t, id) in idx1;
      }
    }
  }

  lemma IndexKeepsOrganizations(idx: Store, t: EntityType, items: seq<Entity>)
    requires t != Organizations
    ensures forall id :: Lookup(IndexItems(idx, t, items), (Organizations, id)) == Lookup(idx, (Organizations, id))
  {
  }

  /** Loading any type below the root leaves the organization entries as they were. */
  lemma {:induction false} LoadKeepsOrganizations(api: Store, cfg: Config, t: EntityType, ids: seq<Id>, idx: Store, fuel: nat)
    requires t != Organizations
    requires Load(api, cfg, t, ids, idx, fuel).Some?
    ensures forall id :: Lookup(Load(api, cfg, t, ids, idx, fuel).value, (Organizations, id)) == Lookup(idx, (Organizations, id))
    decreases fuel, 0
  {
    if |ids| > 0 && fuel > 0 {
      var items := Fetched(api, cfg, t, ids);
      IndexKeepsOrganizations(idx, t, items);
      LoadChildrenKeepsOrganizations(api, cfg, items, Children(t), IndexItems(idx, t, items), fuel - 1);
    }
  }

  lemma {:induction false} LoadChildrenKeepsOrganizations(api: Store, cfg: Config, items: seq<Entity>, specs: seq<ChildSpec>, idx: Store, fuel: nat)
    requires forall i :: 0 <= i < |specs| ==> specs[i].target != Organizations
    requires LoadChildren(api, cfg, items, specs, idx, fuel).Some?
    ensures forall id :: Lookup(LoadChildren(api, cfg, items, specs, idx, fuel).value, (Organizations, id)) == Lookup(idx, (Organizations, id))
    decreases fuel, 1 + |specs|
  {
    if specs != [] {
      var s := specs[0];
      LoadKeepsOrganizations(api, cfg, s.target, Gather(items, s.relation), idx, fuel);
      var next := Load(api, cfg, s.target, Gather(items, s.relation), idx, fuel).value;
      LoadChildrenKeepsOrganizations(api, cfg, items, specs[1..], next, fuel);
    }
  }

  /** The keys `ids` name in type `t`. */
  function Tagged(t: EntityType, ids: seq<Id>): set<Key> {
    set id | id in ids :: (t, id)
  }

  /** The keys the relations `specs` of `items` point at. */
  function Refs(items: seq<Entity>, specs: seq<ChildSpec>): set<Key> {
    if specs == [] then {}
    else Tagged(specs[0].target, Gather(items, specs[0].relation)) + Refs(items, specs[1..])
  }

  lemma {:induction false} RefsMono(items: seq<Entity>, e: Entity, specs: seq<ChildSpec>)
    requires e in items
    ensures Refs([e], specs) <= Refs(items, specs)
    decreases |specs|
  {
    if specs != [] {
      GatherContains(items, specs[0].relation, e);
      assert Gather([e], specs[0].relation) == Links(e, specs[0].relation) + Gather([], specs[0].relation);
      RefsMono(items, e, specs[1..]);
    }
  }

  /**
   * Every child reference of an indexed entity that the API can resolve is
   * itself indexed, or still waiting in `pending`.
   */
  ghost predicate ClosedModulo(api: Store, idx: Store, pending: set<Key>) {
    forall k, r :: k in idx && r in Refs([idx[k]], Children(k.0)) && r in api ==> r in idx || r in pending
  }

  /** The tree-index invariant: no resolvable child reference is missing. */
  ghost predicate Closed(api: Store, idx: Store) {
    ClosedModulo(api, idx, {})
  }

  /**
   * Without a testing limit, a load discharges its own request: the ids it
   * was asked for are indexed, and so, transitively, is every resolvable
   * child of everything it indexed.
   */
  lemma {:induction false} LoadClosed(api: Store, cfg: Config, t: EntityType, ids: seq<Id>, idx: Store, fuel: nat, pending: set<Key>)
    requires WellFormed(api) && cfg.testingLimit == 0 && Consistent(api, idx)
    requires ClosedModulo(api, idx, pending + Tagged(t, ids))
    requires Load(api, cfg, t, ids, idx, fuel).Some?
    ensures ClosedModulo(api, Load(api, cfg, t, ids, idx, fuel).value, pending)
    ensures forall id :: id in ids && (t, id) in api ==> (t, id) in Load(api, cfg, t, ids, idx, fuel).value
    decreases fuel, 0
  {
    if |ids| == 0 {
      assert Tagged(t, ids) == {};
    } else {
      var items := Fetched(api, cfg, t, ids);
      assert items == Response(api, t, ids);
      var idx1 := IndexItems(idx, t, items);
      IndexResponseConsistent(api, t, ids, idx);
      IndexedLevelClosed(api, t, ids, idx, pending);
      LoadChildrenClosed(api, cfg, items, Children(t), idx1, fuel - 1, pending);
      LoadChildrenSound(api, cfg, items, Children(t), idx1, fuel - 1);
    }
  }

  /** After indexing a level, only the children of that level can be missing. */
  lemma IndexedLevelClosed(api: Store, t: EntityType, ids: seq<Id>, idx: Store, pending: set<Key>)
    requires WellFormed(api) && Consistent(api, idx)
    requires ClosedModulo(api, idx, pending + Tagged(t, ids))
    ensures ClosedModulo(api, IndexItems(idx, t, Response(api, t, ids)), pending + Refs(Response(api, t, ids), Children(t)))
  {
    var items := Response(api, t, ids);
    var idx1 := IndexItems(idx, t, items);
    IndexResponseConsistent(api, t, ids, idx);
    forall k, r | k in idx1 && r in Refs([idx1[k]], Children(k.0)) && r in api
      ensures r in idx1 || r in pending + Refs(items, Children(t))
    {
      if k in idx {
        OldEntryCovered(api, t, ids, idx, pending, k, r);
      } else {
        NewEntryCovered(t, items, idx, k);
      }
    }
  }

  lemma ClosedAt(api: Store, idx: Store, pending: set<Key>, k: Key, r: Key)
    requires ClosedModulo(api, idx, pending)
    requires k in idx && r in Refs([idx[k]], Children(k.0)) && r in api
    ensures r in idx || r in pending
  {
  }

  lemma OldEntryCovered(api: Store, t: EntityType, ids: seq<Id>, idx: Store, pending: set<Key>, k: Key, r: Key)
    requires WellFormed(api) && Consistent(api, idx)
    requires ClosedModulo(api, idx, pending + Tagged(t, ids))
    requires k in idx && r in Refs([idx[k]], Children(k.0)) && r in api
    ensures r in IndexItems(idx, t, Response(api, t, ids)) || r in pending
  {
    var idx1 := IndexItems(idx, t, Response(api, t, ids));
    ClosedAt(api, idx, pending + Tagged(t, ids), k, r);
    if r in idx {
      assert r in idx1;
    } else if r !in pending {
      var id :| id in ids && r == (t, id);
      IndexResponseConsistent(api, t, ids, idx);
    }
  }

  lemma NewEntryCovered(t: EntityType, items: seq<Entity>, idx: Store, k: Key)
    requires k in IndexItems(idx, t, items) && k !in idx
    ensures Refs([IndexItems(idx, t, items)[k]], Children(k.0)) <= Refs(items, Children(t))
  {
    var idx1 := IndexItems(idx, t, items);
    assert Lookup(idx1, k) == Some(idx1[k]);
    assert k.0 == t && LastWithId(items, k.1) == Some(idx1[k]);
    RefsMono(items, idx1[k], Children(t));
  }

  lemma {:induction false} LoadChildrenClosed(api: Store, cfg: Config, items: seq<Entity>, specs: seq<ChildSpec>, idx: Store, fuel: nat, pending: set<Key>)
    requires WellFormed(api) && cfg.testingLimit == 0 && Consistent(api, idx)
    requires ClosedModulo(api, idx, pending + Refs(items, specs))
    requires LoadChildren(api, cfg, items, specs, idx, fuel).Some?
    ensures ClosedModulo(api, LoadChildren(api, cfg, items, specs, idx, fuel).value, pending)
    decreases fuel, 1 + |specs|
  {
    if specs == [] {
      assert pending + Refs(items, specs) == pending;
    } else {
      var s := specs[0];
      var ids := Gather(items, s.relation);
      var later := pending + Refs(items, specs[1..]);
      assert pending + Refs(items, specs) == later + Tagged(s.target, ids);
      LoadClosed(api, cfg, s.target, ids, idx, fuel, later);
      LoadSound(api, cfg, s.target, ids, idx, fuel);
      var next := Load(api, cfg, s.target, ids, idx, fuel).value;
      LoadChildrenClosed(api, cfg, items, specs[1..], next, fuel, pending);
    }
  }

  /** Every id a relation lists across a level comes from some item of that level. */
  lemma {:induction false} GatherFrom(items: seq<Entity>, relation: string, id: Id)
    requires id in Gather(items, relation)
    ensures exists e :: e in items && id in Links(e, relation)
    decreases |items|
  {
    if id !in Links(items[0], relation) {
      GatherFrom(items[1..], relation, id);
      var e :| e in items[1..] && id in Links(e, relation);
      assert e in items;
    }
  }

  /** An id a node lists under one of its relations is a reference of that node. */
  lemma {:induction false} RefsHas(e: Entity, specs: seq<ChildSpec>, i: nat, id: Id)
    requires i < |specs| && id in Links(e, specs[i].relation)
    ensures (specs[i].target, id) in Refs([e], specs)
    decreases i
  {
    if i == 0 {
      assert Gather([e], specs[0].relation) == Links(e, specs[0].relation) + Gather([], specs[0].relation);
    } else {
      RefsHas(e, specs[1..], i - 1, id);
    }
  }

  /** `reach` holds the references of every entity of the API it holds. */
  ghost predicate RefClosed(api: Store, reach: set<Key>) {
    forall k, r :: k in reach && k in api && r in Refs([api[k]], Children(k.0)) ==> r in reach
  }

  /** The keys a level's relations point at stay in `reach` when the level's entities do. */
  lemma ChildIdsInReach(api: Store, t: EntityType, items: seq<Entity>, s: ChildSpec, reach: set<Key>)
    requires RefClosed(api, reach) && s in Children(t)
    requires forall e :: e in items ==> (t, e.id) in reach && (t, e.id) in api && api[(t, e.id)] == e
    ensures Tagged(s.target, Gather(items, s.relation)) <= reach
  {
    forall key | key in Tagged(s.target, Gather(items, s.relation))
      ensures key in reach
    {
      var id :| id in Gather(items, s.relation) && key == (s.target, id);
      GatherFrom(items, s.relation, id);
      var e :| e in items && id in Links(e, s.relation);
      var j :| 0 <= j < |Children(t)| && Children(t)[j] == s;
      RefsHas(e, Children(t), j, id);
      assert (t, e.id) in reach && (t, e.id) in api && api[(t, e.id)] == e;
    }
  }

  /**
   * A load adds only keys reachable from the ids asked for: every new key
   * lies in every set that holds those ids and is closed under the API's
   * references, the smallest of which is the set of keys reachable from
   * them.
   */
  lemma {:induction false} LoadReachable(api: Store, cfg: Config, t: EntityType, ids: seq<Id>, idx: Store, fuel: nat, reach: set<Key>)
    requires WellFormed(api) && RefClosed(api, reach) && Tagged(t, ids) <= reach
    requires Load(api, cfg, t, ids, idx, fuel).Some?
    ensures forall k :: k in Load(api, cfg, t, ids, idx, fuel).value ==> k in idx || k in reach
    decreases fuel, 0
  {
    if |ids| > 0 {
      var sent := Truncate(ids, cfg.testingLimit);
      var items := Fetched(api, cfg, t, ids);
      var idx1 := IndexItems(idx, t, items);
      ResponseContents(api, t, sent);
      forall e | e in items
        ensures (t, e.id) in reach && (t, e.id) in api && api[(t, e.id)] == e
      {
        var id :| id in sent && Lookup(api, (t, id)) == Some(e);
        assert id in ids && (t, id) in Tagged(t, ids);
      }
      forall k | k in idx1
        ensures k in idx || k in reach
      {
        assert Lookup(idx1, k).Some?;
        if k.0 == t && LastWithId(items, k.1).Some? {
          assert LastWithId(items, k.1).value in items;
        }
      }
      LoadChildrenReachable(api, cfg, t, items, Children(t), idx1, fuel - 1, reach);
    }
  }

  lemma {:induction false} LoadChildrenReachable(api: Store, cfg: Config, t: EntityType, items: seq<Entity>, specs: seq<ChildSpec>, idx: Store, fuel: nat, reach: set<Key>)
    requires WellFormed(api) && RefClosed(api, reach)
    requires forall i :: 0 <= i < |specs| ==> specs[i] in Children(t)
    requires forall e :: e in items ==> (t, e.id) in reach && (t, e.id) in api && api[(t, e.id)] == e
    requires LoadChildren(api, cfg, items, specs, idx, fuel).Some?
    ensures forall k :: k in LoadChildren(api, cfg, items, specs, idx, fuel).value ==> k in idx || k in reach
    decreases fuel, 1 + |specs|
  {
    if specs != [] {
      var s := specs[0];
      ChildIdsInReach(api, t, items, s, reach);
      LoadReachable(api, cfg, s.target, Gather(items, s.relation), idx, fuel, reach);
      var next := Load(api, cfg, s.target, Gather(items, s.relation), idx, fuel).value;
      LoadChildrenReachable(api, cfg, t, items, specs[1..], next, fuel, reach);
    }
  }

  /**
   * `reach` is closed under the API's references and `rank` strictly drops
   * along every reference of every entity it holds; entities outside
   * `reach`, cyclic or not, are not constrained.
   */
  ghost predicate Ranked(api: Store, rank: Key -> nat, reach: set<Key>) {
    RefClosed(api, reach) &&
    forall k, r :: k in reach && k in api && r in Refs([api[k]], Children(k.0)) ==> rank(r) < rank(k)
  }

  /** The references of a fetched level stay in `reach` and rank below the fuel left for loading them. */
  lemma FetchedRanksBelow(api: Store, cfg: Config, t: EntityType, ids: seq<Id>, fuel: nat, rank: Key -> nat, reach: set<Key>)
    requires Ranked(api, rank, reach) && fuel > 0
    requires forall id :: id in ids ==> (t, id) in reach && rank((t, id)) < fuel
    ensures forall e, r :: e in Fetched(api, cfg, t, ids) && r in Refs([e], Children(t)) ==> r in reach && rank(r) < fuel - 1
  {
    var sent := Truncate(ids, cfg.testingLimit);
    ResponseContents(api, t, sent);
    forall e, r | e in Fetched(api, cfg, t, ids) && r in Refs([e], Children(t))
      ensures r in reach && rank(r) < fuel - 1
    {
      var id :| id in sent && Lookup(api, (t, id)) == Some(e);
      assert id in ids;
      assert (t, id) in reach && (t, id) in api && api[(t, id)] == e;
      assert rank(r) < rank((t, id));
    }
  }

  /** The ids one relation gathers across a level stay in `reach` and rank below the fuel, when all the level's references do. */
  lemma GatheredRanksBelow(t: EntityType, items: seq<Entity>, s: ChildSpec, fuel: nat, rank: Key -> nat, reach: set<Key>)
    requires s in Children(t)
    requires forall e, r :: e in items && r in Refs([e], Children(t)) ==> r in reach && rank(r) < fuel
    ensures forall id :: id in Gather(items, s.relation) ==> (s.target, id) in reach && rank((s.target, id)) < fuel
  {
    forall id | id in Gather(items, s.relation)
      ensures (s.target, id) in reach && rank((s.target, id)) < fuel
    {
      GatherFrom(items, s.relation, id);
      var e :| e in items && id in Links(e, s.relation);
      var j :| 0 <= j < |Children(t)| && Children(t)[j] == s;
      RefsHas(e, Children(t), j, id);
    }
  }

  /**
   * A load finishes when the API's reference structure is acyclic below
   * the ids asked for and fuel exceeds their rank: a tree whose longest
   * chain of links below the root is D loads with D + 1 levels of fuel.
   * A cycle elsewhere in the API, out of reach of these ids, does not matter.
   */
  lemma {:induction false} LoadFinishes(api: Store, cfg: Config, t: EntityType, ids: seq<Id>, idx: Store, fuel: nat, rank: Key -> nat, reach: set<Key>)
    requires Ranked(api, rank, reach)
    requires forall id :: id in ids ==> (t, id) in reach && rank((t, id)) < fuel
    ensures Load(api, cfg, t, ids, idx, fuel).Some?
    decreases fuel, 0
  {
    if |ids| > 0 {
      assert fuel > 0 by {
        assert ids[0] in ids;
      }
      var items := Fetched(api, cfg, t, ids);
      FetchedRanksBelow(api, cfg, t, ids, fuel, rank, reach);
      LoadChildrenFinish(api, cfg, t, items, Children(t), IndexItems(idx, t, items), fuel - 1, rank, reach);
    }
  }

  lemma {:induction false} LoadChildrenFinish(api: Store, cfg: Config, t: EntityType, items: seq<Entity>, specs: seq<ChildSpec>, idx: Store, fuel: nat, rank: Key -> nat, reach: set<Key>)
    requires Ranked(api, rank, reach)
    requires forall i :: 0 <= i < |specs| ==> specs[i] in Children(t)
    requires forall e, r :: e in items && r in Refs([e], Children(t)) ==> r in reach && rank(r) < fuel
    ensures LoadChildren(api, cfg, items, specs, idx, fuel).Some?
    decreases fuel, 1 + |specs|
  {
    if specs != [] {
      var s := specs[0];
      var ids := Gather(items, s.relation);
      GatheredRanksBelow(t, items, s, fuel, rank, reach);
      LoadFinishes(api, cfg, s.target, ids, idx, fuel, rank, reach);
      var next := Load(api, cfg, s.target, ids, idx, fuel).value;
      LoadChildrenFinish(api, cfg, t, items, specs[1..], next, fuel, rank, reach);
    }
  }

  /**
   * What the load phase hands to the serializer: every entry is the API's
   * entity for its key, and without a testing limit the root organization,
   * when the API has it, is indexed together with every resolvable
   * descendant.
   */
  lemma ExportIndexProperties(api: Store, cfg: Config, fuel: nat)
    requires ExportIndex(api, cfg, fuel).Some?
    ensures WellFormed(api) ==> Consistent(api, ExportIndex(api, cfg, fuel).value)
    ensures WellFormed(api) && cfg.testingLimit == 0 ==> Closed(api, ExportIndex(api, cfg, fuel).value)
    ensures WellFormed(api) && cfg.testingLimit == 0 && (Organizations, cfg.organizationId) in api ==>
      (Organizations, cfg.organizationId) in ExportIndex(api, cfg, fuel).value
  {
    LoadSound(api, cfg, Organizations, [cfg.organizationId], map[], fuel);
    if WellFormed(api) && cfg.testingLimit == 0 {
      LoadClosed(api, cfg, Organizations, [cfg.organizationId], map[], fuel, {});
    }
  }

  /**
   * Only what is reachable from the root organization is indexed: every key
   * of the export index lies in every reference-closed set holding the
   * root's key. With `ExportIndexProperties`, which indexes every
   * resolvable reference without a testing limit, the index is exactly the
   * part of the API reachable from the root.
   */
  lemma ExportIndexReachable(api: Store, cfg: Config, fuel: nat, reach: set<Key>)
    requires WellFormed(api) && RefClosed(api, reach) && (Organizations, cfg.organizationId) in reach
    requires ExportIndex(api, cfg, fuel).Some?
    ensures ExportIndex(api, cfg, fuel).value.Keys <= reach
  {
    assert Tagged(Organizations, [cfg.organizationId]) == {(Organizations, cfg.organizationId)};
    LoadReachable(api, cfg, Organizations, [cfg.organizationId], map[], fuel, reach);
  }

  /** The load phase finishes when the API is acyclic below the root and fuel exceeds the root's rank. */
  lemma ExportIndexFinishes(api: Store, cfg: Config, fuel: nat, rank: Key -> nat, reach: set<Key>)
    requires Ranked(api, rank, reach)
    requires (Organizations, cfg.organizationId) in reach && rank((Organizations, cfg.organizationId)) < fuel
    ensures ExportIndex(api, cfg, fuel).Some?
  {
    LoadFinishes(api, cfg, Organizations, [cfg.organizationId], map[], fuel, rank, reach);
  }

  /**
   * At most one organization is indexed: nothing but the root request
   * loads organizations, and it asks for one id.
   */
  lemma ExportIndexOneOrganization(api: Store, cfg: Config, fuel: nat)
    requires ExportIndex(api, cfg, fuel).Some?
    ensures forall a, b ::
      (Organizations, a) in ExportIndex(api, cfg, fuel).value && (Organizations, b) in ExportIndex(api, cfg, fuel).value ==> a == b
  {
    var root: seq<Id> := [cfg.organizationId];
    var r := ExportIndex(api, cfg, fuel).value;
    var items := Fetched(api, cfg, Organizations, root);
    var idx1 := IndexItems(map[], Organizations, items);
    LoadChildrenKeepsOrganizations(api, cfg, items, Children(Organizations), idx1, fuel - 1);
    forall a, b | (Organizations, a) in r && (Organizations, b) in r
      ensures a == b
    {
      assert Lookup(idx1, (Organizations, a)).Some? && Lookup(idx1, (Organizations, b)).Some?;
      assert |items| <= 1;
    }
  }
}

=== FILE: serializer.dfy ===
/**
 * `postProcess` and `processNode`: a depth-first walk of the tree index
 * that calls each type's `processNode` hook on a node and then walks the
 * node's children, relation by relation and id by id. The file system
 * effects are returned as a trace of actions instead of being performed.
 */
module Serializer {
  import opened Wrappers
  import opened Entities
  import opened Feedback
  import opened Downloads

  /** One file system effect, or a call to `requestAndSaveFile`. */
  datatype Action =
    | MakeDir(path: string)
    | WriteJson(path: string, node: Entity)
    | AppendLine(path: string, line: string)
    | Request(task: Task)

  /** What the walk reads besides the node: the tree index and `args.skipFileAssets`. */
  datatype Context = Context(index: Store, skipFileAssets: bool)

  /** What a hook returns (the path its children are written under) and what it did. */
  datatype Hooked = Hooked(childPath: string, trace: Emitted<Action>)

  /** The path an action writes to, or the directory a requested asset is saved in. */
  function ActionPath(a: Action): string {
    match a
    case MakeDir(p) => p
    case WriteJson(p, _) => p
    case AppendLine(p, _) => p
    case Request(task) => task.dir
  }

  /** `p` is `root` itself or lies inside it. */
  predicate Under(p: string, root: string) {
    p == root || root + "/" <= p
  }

  predicate AllUnder(actions: seq<Action>, root: string) {
    forall i :: 0 <= i < |actions| ==> Under(ActionPath(actions[i]), root)
  }

  predicate Requests(actions: seq<Action>) {
    exists i :: 0 <= i < |actions| && actions[i].Request?
  }

  lemma UnderTrans(a: string, b: string, c: string)
    requires Under(a, b) && Under(b, c)
    ensures Under(a, c)
  {
    if a != b && b != c {
      assert (b + "/")[..|c| + 1] == c + "/";
      assert a[..|b| + 1] == b + "/";
      assert a[..|c| + 1] == (b + "/")[..|c| + 1];
    }
  }

  lemma UnderChild(root: string, name: string)
    ensures Under(root + "/" + name, root)
  {
    assert (root + "/" + name)[..|root| + 1] == root + "/";
  }

  /** The directory a hook creates for a node, relative to its parent's path. */
  function DirName(t: EntityType, node: Entity): string
    requires CreatesDirectory(t)
  {
    match t
    case Organizations => Field(node, "name")
    case Projects => Field(node, "name")
    case Folders => Field(node, "name")
    case Files => Field(node, "slug")
    case Revisions => "revision-" + Field(node, "revision_number")
    case Previews =>
      "preview - " + Field(node, "page_number") + (if Truthy(node, "name") then " - " + Field(node, "name") else "")
    case Users => "users"
  }

  /**
   * A preview's directory is `preview - N` exactly when its name is falsy,
   * and `preview - N - name` otherwise.
   */
  lemma PreviewDirName(node: Entity)
    ensures DirName(Previews, node) == "preview - " + Field(node, "page_number") <==> !Truthy(node, "name")
    ensures Truthy(node, "name") ==>
      DirName(Previews, node) == "preview - " + Field(node, "page_number") + " - " + Field(node, "name")
  {
  }

  /** Where a hook writes the node's JSON: `first-last.json` for a user, `meta.json` for the rest. */
  function NodeFile(t: EntityType, node: Entity, dir: string): string {
    if t == Users then dir + "/" + Field(node, "first_name") + "-" + Field(node, "last_name") + ".json"
    else dir + "/meta.json"
  }

  /** The asset a node's hook requests, if its type has one. */
  function Asset(t: EntityType, node: Entity, dir: string): Option<Task> {
    match t
    case Revisions => Some(Task(Field(node, "download_url"), dir, None))
    case Previews => Some(Task(Field(node, "url"), dir, Some("preview.png")))
    case _ => None
  }

  /** One `AppendLine` per line, in order. */
  function Appends(file: string, lines: seq<string>): (actions: seq<Action>)
    ensures |actions| == |lines|
    ensures forall i :: 0 <= i < |lines| ==> actions[i] == AppendLine(file, lines[i])
  {
    if lines == [] then [] else [AppendLine(file, lines[0])] + Appends(file, lines[1..])
  }

  /** The comment lines of a preview, written to `comments.md` in its directory. */
  function CommentActions(ctx: Context, node: Entity, dir: string, fuel: nat): Emitted<Action> {
    var lines := PreviewComments(ctx.index, node, fuel);
    Emitted(Appends(dir + "/comments.md", lines.items), lines.halted)
  }

  /**
   * The `processNode` hook of each descriptor. Clusters and feedback items
   * do nothing and hand their parent's path to their children; every other
   * type makes its own directory under the parent's path, first of all, and
   * writes the node's JSON into it next. Revisions and previews then request
   * their asset unless `skipFileAssets`, a preview after writing its
   * comments; only the comments can throw, and the hook writes nothing
   * else.
   */
  function Hook(ctx: Context, t: EntityType, node: Entity, path: string, fuel: nat): (h: Hooked)
    ensures !CreatesDirectory(t) ==> h == Hooked(path, Done())
    ensures CreatesDirectory(t) ==> h.childPath == path + "/" + DirName(t, node)
    ensures CreatesDirectory(t) ==>
      (|h.trace.items| >= 2 && h.trace.items[0] == MakeDir(h.childPath) &&
       h.trace.items[1] == WriteJson(NodeFile(t, node, h.childPath), node))
    ensures Under(h.childPath, path) && AllUnder(h.trace.items, h.childPath)
    ensures h.trace.halted ==> t == Previews
    ensures Requests(h.trace.items) <==> !ctx.skipFileAssets && Asset(t, node, h.childPath).Some? && !h.trace.halted
    ensures Requests(h.trace.items) ==> h.trace.items[|h.trace.items| - 1] == Request(Asset(t, node, h.childPath).value)
    ensures CreatesDirectory(t) ==>
      |h.trace.items| == 2 + (if t == Previews then |CommentActions(ctx, node, h.childPath, fuel).items| else 0) +
                         (if Requests(h.trace.items) then 1 else 0)
    ensures t == Previews ==>
      (|h.trace.items| >= 2 + |CommentActions(ctx, node, h.childPath, fuel).items| &&
       forall i :: 0 <= i < |CommentActions(ctx, node, h.childPath, fuel).items| ==>
         h.trace.items[i + 2] == CommentActions(ctx, node, h.childPath, fuel).items[i])
  {
    if !CreatesDirectory(t) then Hooked(path, Done())
    else
      var dir := path + "/" + DirName(t, node);
      UnderChild(path, DirName(t, node));
      Hooked(dir, DirectoryHook(ctx, t, node, dir, fuel))
  }

  /**
   * The hook of a type with a directory of its own, once the directory's
   * path is known: the directory, the node's JSON, then (previews) the
   * comment lines, then the asset request unless skipped or thrown past.
   */
  function DirectoryHook(ctx: Context, t: EntityType, node: Entity, dir: string, fuel: nat): (trace: Emitted<Action>)
    ensures |trace.items| >= 2 && trace.items[0] == MakeDir(dir) && trace.items[1] == WriteJson(NodeFile(t, node, dir), node)
    ensures AllUnder(trace.items, dir)
    ensures trace.halted ==> t == Previews
    ensures Requests(trace.items) <==> !ctx.skipFileAssets && Asset(t, node, dir).Some? && !trace.halted
    ensures Requests(trace.items) ==> trace.items[|trace.items| - 1] == Request(Asset(t, node, dir).value)
    ensures |trace.items| == 2 + (if t == Previews then |CommentActions(ctx, node, dir, fuel).items| else 0) +
                             (if Requests(trace.items) then 1 else 0)
    ensures t == Previews ==>
      (|trace.items| >= 2 + |CommentActions(ctx, node, dir, fuel).items| &&
       forall i :: 0 <= i < |CommentActions(ctx, node, dir, fuel).items| ==>
         trace.items[i + 2] == CommentActions(ctx, node, dir, fuel).items[i])
  {
    var comments := if t == Previews then CommentActions(ctx, node, dir, fuel) else Done();
    var request := if !ctx.skipFileAssets && !comments.halted && Asset(t, node, dir).Some? then [Request(Asset(t, node, dir).value)] else [];
    var trace := Emitted([MakeDir(dir), WriteJson(NodeFile(t, node, dir), node)] + comments.items + request, comments.halted);
    HookTraceFacts(ctx, t, node, dir, fuel, comments, request, trace);
    TraceShape([MakeDir(dir), WriteJson(NodeFile(t, node, dir), node)], comments.items, request);
    trace
  }

  /** Two leading actions, then the middle part in order, then the tail. */
  lemma TraceShape(head: seq<Action>, middle: seq<Action>, tail: seq<Action>)
    requires |head| == 2
    ensures |head + middle + tail| == 2 + |middle| + |tail|
    ensures forall i :: 0 <= i < |middle| ==> (head + middle + tail)[i + 2] == middle[i]
  {
  }

  /** The comment actions of a hook are appends to `comments.md` in its directory. */
  lemma CommentsInDir(ctx: Context, t: EntityType, node: Entity, dir: string, fuel: nat, comments: Emitted<Action>)
    requires comments == if t == Previews then CommentActions(ctx, node, dir, fuel) else Done()
    ensures forall i :: 0 <= i < |comments.items| ==> comments.items[i].AppendLine? && comments.items[i].path == dir + "/comments.md"
  {
  }

  lemma HookTraceFacts(ctx: Context, t: EntityType, node: Entity, dir: string, fuel: nat,
                       comments: Emitted<Action>, request: seq<Action>, trace: Emitted<Action>)
    requires comments == if t == Previews then CommentActions(ctx, node, dir, fuel) else Done()
    requires request == if !ctx.skipFileAssets && !comments.halted && Asset(t, node, dir).Some? then [Request(Asset(t, node, dir).value)] else []
    requires trace == Emitted([MakeDir(dir), WriteJson(NodeFile(t, node, dir), node)] + comments.items + request, comments.halted)
    ensures AllUnder(trace.items, dir)
    ensures Requests(trace.items) <==> request != []
  {
    CommentsInDir(ctx, t, node, dir, fuel, comments);
    UnderChild(dir, "comments.md");
    UnderChild(dir, "meta.json");
    UnderChild(dir, Field(node, "first_name") + "-" + Field(node, "last_name") + ".json");
    var n := |comments.items|;
    forall i | 0 <= i < |trace.items|
      ensures Under(ActionPath(trace.items[i]), dir) && (trace.items[i].Request? ==> i >= 2 + n)
    {
      if 2 <= i < 2 + n {
        assert trace.items[i] == comments.items[i - 2];
      } else if i >= 2 + n {
        assert trace.items[i] == request[i - 2 - n];
      }
    }
    if request != [] {
      assert trace.items[2 + n].Request?;
    }
  }

  /**
   * `processNode(type, node, startPath)`: the hook first, then each child
   * relation in descriptor order and each child id in link order; an id
   * missing from the index is skipped. A chain deeper than `fuel` throws
   * (the call stack). Everything the walk writes lies under `path`; with
   * `skipFileAssets` it requests nothing; and a node's own actions come
   * before any of its descendants'.
   */
  function Visit(ctx: Context, t: EntityType, node: Entity, path: string, fuel: nat): (r: Emitted<Action>)
    ensures AllUnder(r.items, path)
    ensures ctx.skipFileAssets ==> !Requests(r.items)
    ensures fuel > 0 ==> Hook(ctx, t, node, path, fuel).trace.items <= r.items
    ensures fuel > 0 && CreatesDirectory(t) ==> r.items[0] == MakeDir(path + "/" + DirName(t, node))
    decreases fuel, 0, 0
  {
    if fuel == 0 then Emitted([], true)
    else
      var h := Hook(ctx, t, node, path, fuel);
      var rest := VisitSpecs(ctx, node, Children(t), h.childPath, fuel - 1);
      AllUnderThen(h.trace, rest, h.childPath);
      AllUnderWiden(Then(h.trace, rest).items, h.childPath, path);
      NoRequestsThen(h.trace, rest);
      Then(h.trace, rest)
  }

  /** The children of `node` reached through each relation of `specs`, in order. */
  function VisitSpecs(ctx: Context, node: Entity, specs: seq<ChildSpec>, path: string, fuel: nat): (r: Emitted<Action>)
    ensures AllUnder(r.items, path)
    ensures ctx.skipFileAssets ==> !Requests(r.items)
    decreases fuel, 2, |specs|
  {
    if specs == [] then Done()
    else
      var first := VisitIds(ctx, specs[0].target, Links(node, specs[0].relation), path, fuel);
      var rest := VisitSpecs(ctx, node, specs[1..], path, fuel);
      AllUnderThen(first, rest, path);
      NoRequestsThen(first, rest);
      Then(first, rest)
  }

  /** `ids.forEach(…)`: each id that resolves in the index is walked, in order. */
  function VisitIds(ctx: Context, t: EntityType, ids: seq<Id>, path: string, fuel: nat): (r: Emitted<Action>)
    ensures AllUnder(r.items, path)
    ensures ctx.skipFileAssets ==> !Requests(r.items)
    decreases fuel, 1, |ids|
  {
    if ids == [] then Done()
    else
      var first := match Lookup(ctx.index, (t, ids[0]))
        case None => Done()
        case Some(child) => Visit(ctx, t, child, path, fuel);
      var rest := VisitIds(ctx, t, ids[1..], path, fuel);
      AllUnderThen(first, rest, path);
      NoRequestsThen(first, rest);
      Then(first, rest)
  }

  lemma AllUnderThen(a: Emitted<Action>, b: Emitted<Action>, root: string)
    requires AllUnder(a.items, root) && AllUnder(b.items, root)
    ensures AllUnder(Then(a, b).items, root)
  {
    var r := Then(a, b);
    forall i | |a.items| <= i < |r.items|
      ensures r.items[i] == b.items[i - |a.items|]
    {
    }
  }

  /** What lies under a directory lies under every directory that contains it. */
  lemma AllUnderWiden(actions: seq<Action>, dir: string, root: string)
    requires AllUnder(actions, dir) && Under(dir, root)
    ensures AllUnder(actions, root)
  {
    forall i | 0 <= i < |actions|
      ensures Under(ActionPath(actions[i]), root)
    {
      UnderTrans(ActionPath(actions[i]), dir, root);
    }
  }

  lemma NoRequestsThen(a: Emitted<Action>, b: Emitted<Action>)
    ensures Requests(Then(a, b).items) ==> Requests(a.items) || Requests(b.items)
  {
    var r := Then(a, b);
    if Requests(r.items) {
      var i :| 0 <= i < |r.items| && r.items[i].Request?;
      if i >= |a.items| {
        assert r.items[i] == b.items[i - |a.items|];
      }
    }
  }

  /** Walking a list of ids in two parts is walking the first part, then the second. */
  lemma {:induction false} VisitIdsAppend(ctx: Context, t: EntityType, a: seq<Id>, b: seq<Id>, path: string, fuel: nat)
    ensures VisitIds(ctx, t, a + b, path, fuel) == Then(VisitIds(ctx, t, a, path, fuel), VisitIds(ctx, t, b, path, fuel))
    decreases |a|
  {
    if a == [] {
      assert a + b == b;
      ThenDone(VisitIds(ctx, t, b, path, fuel));
    } else {
      assert (a + b)[0] == a[0] && (a + b)[1..] == a[1..] + b;
      VisitIdsAppend(ctx, t, a[1..], b, path, fuel);
      var first := match Lookup(ctx.index, (t, a[0]))
        case None => Done()
        case Some(child) => Visit(ctx, t, child, path, fuel);
      ThenAssoc(first, VisitIds(ctx, t, a[1..], path, fuel), VisitIds(ctx, t, b, path, fuel));
    }
  }

  /**
   * The relations of a node are walked in the order of its type's
   * descriptor: the walk over `a + b` is the walk over `a`, then the walk
   * over `b`, and a halt in `a` cuts `b` off.
   */
  lemma {:induction false} VisitSpecsAppend(ctx: Context, node: Entity, a: seq<ChildSpec>, b: seq<ChildSpec>, path: string, fuel: nat)
    ensures VisitSpecs(ctx, node, a + b, path, fuel) == Then(VisitSpecs(ctx, node, a, path, fuel), VisitSpecs(ctx, node, b, path, fuel))
    decreases |a|
  {
    if a == [] {
      assert a + b == b;
      ThenDone(VisitSpecs(ctx, node, b, path, fuel));
    } else {
      assert (a + b)[0] == a[0] && (a + b)[1..] == a[1..] + b;
      VisitSpecsAppend(ctx, node, a[1..], b, path, fuel);
      var first := VisitIds(ctx, a[0].target, Links(node, a[0].relation), path, fuel);
      ThenAssoc(first, VisitSpecs(ctx, node, a[1..], path, fuel), VisitSpecs(ctx, node, b, path, fuel));
    }
  }

  /** One relation: its linked ids in link order, each looked up under the relation's target type. */
  lemma VisitSpecsOne(ctx: Context, node: Entity, spec: ChildSpec, path: string, fuel: nat)
    ensures VisitSpecs(ctx, node, [spec], path, fuel) == VisitIds(ctx, spec.target, Links(node, spec.relation), path, fuel)
  {
    assert [spec][1..] == [];
    ThenDone(VisitIds(ctx, spec.target, Links(node, spec.relation), path, fuel));
  }

  /**
   * A folder's walk: its own hook, then every linked sub-folder's subtree,
   * then every linked file's subtree, all inside the folder's directory.
   */
  lemma FoldersBeforeFiles(ctx: Context, node: Entity, path: string, fuel: nat)
    requires fuel > 0
    ensures var dir := path + "/" + Field(node, "name");
            Visit(ctx, Folders, node, path, fuel) ==
              Then(Then(Hook(ctx, Folders, node, path, fuel).trace, VisitIds(ctx, Folders, Links(node, "folders"), dir, fuel - 1)),
                   VisitIds(ctx, Files, Links(node, "files"), dir, fuel - 1))
  {
    var dir := path + "/" + Field(node, "name");
    var h := Hook(ctx, Folders, node, path, fuel);
    var folders := VisitIds(ctx, Folders, Links(node, "folders"), dir, fuel - 1);
    var files := VisitIds(ctx, Files, Links(node, "files"), dir, fuel - 1);
    assert VisitSpecs(ctx, node, Children(Folders), dir, fuel - 1) == Then(folders, files) by {
      var f, g := ChildSpec("folders", Folders), ChildSpec("files", Files);
      assert Children(Folders) == [f] + [g];
      VisitSpecsAppend(ctx, node, [f], [g], dir, fuel - 1);
      VisitSpecsOne(ctx, node, f, dir, fuel - 1);
      VisitSpecsOne(ctx, node, g, dir, fuel - 1);
    }
    assert Visit(ctx, Folders, node, path, fuel) == Then(h.trace, VisitSpecs(ctx, node, Children(Folders), dir, fuel - 1)) by {
      assert h.childPath == dir;
    }
    ThenAssoc(h.trace, folders, files);
  }

  /**
   * `processNode` for every type: the node's hook, then the walks of the
   * type's relations in descriptor order, inside the hook's child path.
   */
  lemma VisitIsHookThenChildren(ctx: Context, t: EntityType, node: Entity, path: string, fuel: nat)
    requires fuel > 0
    ensures var h := Hook(ctx, t, node, path, fuel);
            Visit(ctx, t, node, path, fuel) == Then(h.trace, VisitSpecs(ctx, node, Children(t), h.childPath, fuel - 1))
  {
  }

  /** An id of a list that resolves to `child`: a walk of the list that does not throw holds `child`'s whole walk. */
  lemma {:induction false} VisitIdsWalks(ctx: Context, t: EntityType, ids: seq<Id>, path: string, fuel: nat, k: nat, child: Entity)
    requires k < |ids| && Lookup(ctx.index, (t, ids[k])) == Some(child)
    requires !VisitIds(ctx, t, ids, path, fuel).halted
    ensures Infix(Visit(ctx, t, child, path, fuel).items, VisitIds(ctx, t, ids, path, fuel).items)
  {
    var pre, id, post := ids[..k], ids[k], ids[k + 1..];
    var one := VisitIds(ctx, t, [id], path, fuel);
    assert VisitIds(ctx, t, ids, path, fuel) ==
           Then(VisitIds(ctx, t, pre, path, fuel), Then(one, VisitIds(ctx, t, post, path, fuel))) by {
      SplitAround(ids, k);
      VisitIdsAppend(ctx, t, pre, [id] + post, path, fuel);
      VisitIdsAppend(ctx, t, [id], post, path, fuel);
    }
    VisitIdsSingle(ctx, t, id, child, path, fuel);
    InfixMiddle(VisitIds(ctx, t, pre, path, fuel), one, VisitIds(ctx, t, post, path, fuel), VisitIds(ctx, t, ids, path, fuel));
  }

  lemma VisitIdsSingle(ctx: Context, t: EntityType, id: Id, child: Entity, path: string, fuel: nat)
    requires Lookup(ctx.index, (t, id)) == Some(child)
    ensures VisitIds(ctx, t, [id], path, fuel) == Visit(ctx, t, child, path, fuel)
  {
    var ids := [id];
    assert ids[0] == id && ids[1..] == [];
    ThenDone(Visit(ctx, t, child, path, fuel));
  }

  /** A walk of a relation list that does not throw holds the whole walk of each relation in it. */
  lemma {:induction false} VisitSpecsWalksRelation(ctx: Context, node: Entity, specs: seq<ChildSpec>, j: nat, path: string, fuel: nat)
    requires j < |specs| && !VisitSpecs(ctx, node, specs, path, fuel).halted
    ensures var ids := VisitIds(ctx, specs[j].target, Links(node, specs[j].relation), path, fuel);
            !ids.halted && Infix(ids.items, VisitSpecs(ctx, node, specs, path, fuel).items)
  {
    var s := specs[j];
    var pre := VisitSpecs(ctx, node, specs[..j], path, fuel);
    var ids := VisitIds(ctx, s.target, Links(node, s.relation), path, fuel);
    var post := VisitSpecs(ctx, node, specs[j + 1..], path, fuel);
    assert VisitSpecs(ctx, node, specs, path, fuel) == Then(pre, Then(ids, post)) by {
      SplitAround(specs, j);
      VisitSpecsAppend(ctx, node, specs[..j], [s] + specs[j + 1..], path, fuel);
      VisitSpecsAppend(ctx, node, [s], specs[j + 1..], path, fuel);
      VisitSpecsOne(ctx, node, s, path, fuel);
    }
    InfixMiddle(pre, ids, post, VisitSpecs(ctx, node, specs, path, fuel));
  }

  /** Whatever precedes a relation list's walk, a run that does not throw holds the whole walk of each relation. */
  lemma {:induction false} RelationWithin(ctx: Context, node: Entity, before: Emitted<Action>, specs: seq<ChildSpec>, j: nat,
                                          path: string, fuel: nat, whole: Emitted<Action>)
    requires j < |specs|
    requires whole == Then(before, VisitSpecs(ctx, node, specs, path, fuel)) && !whole.halted
    ensures var ids := VisitIds(ctx, specs[j].target, Links(node, specs[j].relation), path, fuel);
            !ids.halted && Infix(ids.items, whole.items)
  {
    var vs := VisitSpecs(ctx, node, specs, path, fuel);
    InfixLast(before, vs, whole);
    VisitSpecsWalksRelation(ctx, node, specs, j, path, fuel);
    InfixTrans(VisitIds(ctx, specs[j].target, Links(node, specs[j].relation), path, fuel).items, vs.items, whole.items);
  }

  /** A run that holds a whole id list's walk, not throwing, holds the walk of every child the list resolves to. */
  lemma {:induction false} ChildWithin(ctx: Context, t: EntityType, ids: seq<Id>, path: string, fuel: nat, k: nat, child: Entity, whole: seq<Action>)
    requires k < |ids| && Lookup(ctx.index, (t, ids[k])) == Some(child)
    requires !VisitIds(ctx, t, ids, path, fuel).halted && Infix(VisitIds(ctx, t, ids, path, fuel).items, whole)
    ensures Infix(Visit(ctx, t, child, path, fuel).items, whole)
  {
    VisitIdsWalks(ctx, t, ids, path, fuel, k, child);
    InfixTrans(Visit(ctx, t, child, path, fuel).items, VisitIds(ctx, t, ids, path, fuel).items, whole);
  }

  /**
   * Every child of every relation is walked: for any relation of the
   * node's type and any linked id that resolves in the index, a walk that
   * does not throw holds the child's whole walk, made inside the node's
   * directory (or the parent's, for the types that make none).
   */
  lemma {:induction false} VisitWalksChildren(ctx: Context, t: EntityType, node: Entity, path: string, fuel: nat, j: nat, k: nat, child: Entity)
    requires fuel > 0 && j < |Children(t)|
    requires k < |Links(node, Children(t)[j].relation)|
    requires Lookup(ctx.index, (Children(t)[j].target, Links(node, Children(t)[j].relation)[k])) == Some(child)
    requires !Visit(ctx, t, node, path, fuel).halted
    ensures var h := Hook(ctx, t, node, path, fuel);
            Infix(Visit(ctx, Children(t)[j].target, child, h.childPath, fuel - 1).items, Visit(ctx, t, node, path, fuel).items)
  {
    var h := Hook(ctx, t, node, path, fuel);
    VisitIsHookThenChildren(ctx, t, node, path, fuel);
    ChildOfRelationWithin(ctx, node, h.trace, Children(t), j, k, child, h.childPath, fuel - 1, Visit(ctx, t, node, path, fuel));
  }

  lemma {:induction false} ChildOfRelationWithin(ctx: Context, node: Entity, before: Emitted<Action>, specs: seq<ChildSpec>, j: nat, k: nat,
                                                 child: Entity, path: string, fuel: nat, whole: Emitted<Action>)
    requires j < |specs| && k < |Links(node, specs[j].relation)|
    requires Lookup(ctx.index, (specs[j].target, Links(node, specs[j].relation)[k])) == Some(child)
    requires whole == Then(before, VisitSpecs(ctx, node, specs, path, fuel)) && !whole.halted
    ensures Infix(Visit(ctx, specs[j].target, child, path, fuel).items, whole.items)
  {
    RelationWithin(ctx, node, before, specs, j, path, fuel, whole);
    ChildWithin(ctx, specs[j].target, Links(node, specs[j].relation), path, fuel, k, child, whole.items);
  }

  /**
   * A child id missing from the index is logged and skipped: it adds nothing
   * and the walk carries on with the next sibling.
   */
  lemma DanglingIdSkipped(ctx: Context, t: EntityType, before: seq<Id>, id: Id, after: seq<Id>, path: string, fuel: nat)
    requires (t, id) !in ctx.index
    ensures VisitIds(ctx, t, before + [id] + after, path, fuel) ==
            Then(VisitIds(ctx, t, before, path, fuel), VisitIds(ctx, t, after, path, fuel))
  {
    VisitIdsAppend(ctx, t, before, [id] + after, path, fuel);
    assert before + [id] + after == before + ([id] + after);
    var tail := [id] + after;
    assert tail[0] == id && tail[1..] == after;
    ThenDone(VisitIds(ctx, t, after, path, fuel));
  }

  /**
   * A revision reached with enough stack and without `skipFileAssets`
   * requests its `download_url` into its own directory, the file name to be
   * taken from the reply.
   */
  lemma RevisionRequestsDownload(ctx: Context, node: Entity, path: string, fuel: nat)
    requires fuel > 0 && !ctx.skipFileAssets
    ensures Request(Task(Field(node, "download_url"), path + "/revision-" + Field(node, "revision_number"), None))
            in Visit(ctx, Revisions, node, path, fuel).items
  {
    var h := Hook(ctx, Revisions, node, path, fuel);
    assert h.childPath == path + "/revision-" + Field(node, "revision_number");
    assert Requests(h.trace.items);
    var r := Visit(ctx, Revisions, node, path, fuel);
    assert r.items[|h.trace.items| - 1] == h.trace.items[|h.trace.items| - 1];
  }

  /**
   * A preview whose comments render without throwing requests its `url` as
   * `preview.png` in its own directory, after every comment line.
   */
  lemma PreviewRequestsImage(ctx: Context, node: Entity, path: string, fuel: nat)
    requires fuel > 0 && !ctx.skipFileAssets
    requires !PreviewComments(ctx.index, node, fuel).halted
    ensures var dir := path + "/" + DirName(Previews, node);
            var r := Visit(ctx, Previews, node, path, fuel);
            var n := |PreviewComments(ctx.index, node, fuel).items|;
            |r.items| >= n + 3 && r.items[n + 2] == Request(Task(Field(node, "url"), dir, Some("preview.png"))) &&
            forall i :: 0 <= i < n ==> r.items[i + 2] == AppendLine(dir + "/comments.md", PreviewComments(ctx.index, node, fuel).items[i])
  {
    var dir := path + "/" + DirName(Previews, node);
    var h := Hook(ctx, Previews, node, path, fuel);
    var lines := PreviewComments(ctx.index, node, fuel);
    var c := CommentActions(ctx, node, dir, fuel);
    assert h.trace == Then(Then(Emit([MakeDir(dir), WriteJson(dir + "/meta.json", node)]), c),
                           Emit([Request(Task(Field(node, "url"), dir, Some("preview.png")))]));
    assert |h.trace.items| == |lines.items| + 3;
    var r := Visit(ctx, Previews, node, path, fuel);
    assert r.items[..|h.trace.items|] == h.trace.items;
    forall i | 0 <= i < |lines.items|
      ensures r.items[i + 2] == AppendLine(dir + "/comments.md", lines.items[i])
    {
      assert r.items[i + 2] == h.trace.items[i + 2] == c.items[i];
    }
    assert r.items[|lines.items| + 2] == h.trace.items[|lines.items| + 2];
  }

  /** `_.values(treeObjects['organizations'])`: every indexed organization once, in some order. */
  predicate EnumeratesOrganizations(index: Store, orgIds: seq<Id>) {
    (forall i, j :: 0 <= i < j < |orgIds| ==> orgIds[i] != orgIds[j]) &&
    (forall i :: 0 <= i < |orgIds| ==> (Organizations, orgIds[i]) in index) &&
    (forall k :: k in index && k.0 == Organizations ==> k.1 in orgIds)
  }

  /** The export root, `'out/' + strftime('%Y%m%d-%H%M%S')`; the timestamp is a parameter. */
  function ExportRoot(stamp: string): string {
    "out/" + stamp
  }

  /**
   * `postProcess`: create `out` and the timestamped root, then walk every
   * organization. Everything after the two directories lies inside the
   * root, and nothing is requested under `skipFileAssets`.
   */
  function Serialize(ctx: Context, orgIds: seq<Id>, stamp: string, fuel: nat): (r: Emitted<Action>)
    requires EnumeratesOrganizations(ctx.index, orgIds)
    ensures |r.items| >= 2 && r.items[0] == MakeDir("out") && r.items[1] == MakeDir(ExportRoot(stamp))
    ensures Under(ExportRoot(stamp), "out")
    ensures AllUnder(r.items[2..], ExportRoot(stamp))
    ensures ctx.skipFileAssets ==> !Requests(r.items)
  {
    var walk := VisitIds(ctx, Organizations, orgIds, ExportRoot(stamp), fuel);
    var r := Then(Emit([MakeDir("out"), MakeDir(ExportRoot(stamp))]), walk);
    assert r.items[2..] == walk.items;
    UnderChild("out", stamp);
    NoRequestsThen(Emit([MakeDir("out"), MakeDir(ExportRoot(stamp))]), walk);
    r
  }

  /** After the two directories, the export is the walk of the organizations in enumeration order. */
  lemma SerializeIsWalk(ctx: Context, orgIds: seq<Id>, stamp: string, fuel: nat)
    requires EnumeratesOrganizations(ctx.index, orgIds)
    ensures var r, walk := Serialize(ctx, orgIds, stamp, fuel), VisitIds(ctx, Organizations, orgIds, ExportRoot(stamp), fuel);
            r.items[2..] == walk.items && r.halted == walk.halted
  {
  }

  /**
   * An export that does not throw holds each enumerated organization's
   * whole walk, which starts with the organization's directory in the root.
   */
  lemma {:induction false} SerializeWalksOrganizations(ctx: Context, orgIds: seq<Id>, stamp: string, fuel: nat, i: nat)
    requires EnumeratesOrganizations(ctx.index, orgIds)
    requires i < |orgIds|
    ensures var r, org := Serialize(ctx, orgIds, stamp, fuel), ctx.index[(Organizations, orgIds[i])];
            !r.halted ==> Infix(Visit(ctx, Organizations, org, ExportRoot(stamp), fuel).items, r.items)
    ensures var r, org := Serialize(ctx, orgIds, stamp, fuel), ctx.index[(Organizations, orgIds[i])];
            !r.halted && fuel > 0 ==> MakeDir(ExportRoot(stamp) + "/" + DirName(Organizations, org)) in r.items
  {
    var r := Serialize(ctx, orgIds, stamp, fuel);
    if !r.halted {
      var dirs := Emit([MakeDir("out"), MakeDir(ExportRoot(stamp))]);
      var walk := VisitIds(ctx, Organizations, orgIds, ExportRoot(stamp), fuel);
      var org := ctx.index[(Organizations, orgIds[i])];
      var w := Visit(ctx, Organizations, org, ExportRoot(stamp), fuel);
      assert r == Then(dirs, walk);
      InfixLast(dirs, walk, r);
      VisitIdsWalks(ctx, Organizations, orgIds, ExportRoot(stamp), fuel, i, org);
      InfixTrans(w.items, walk.items, r.items);
      if fuel > 0 {
        var n :| InfixAt(w.items, r.items, n);
        assert r.items[n] == w.items[0];
      }
    }
  }

  /** The tasks handed to `requestAndSaveFile`, in call order. */
  function Requested(actions: seq<Action>): (tasks: seq<Task>)
    ensures |tasks| <= |actions|
    ensures forall task :: task in tasks <==> Request(task) in actions
  {
    if actions == [] then []
    else (if actions[0].Request? then [actions[0].task] else []) + Requested(actions[1..])
  }

  /**
   * No response can arrive while the walk runs (it never yields), so once
   * it ends, the first `maxConcurrentRequests` assets it requested are in
   * flight and the rest wait in request order, when no start throws.
   */
  lemma WalkLeavesQueue(ctx: Context, orgIds: seq<Id>, stamp: string, fuel: nat, ceiling: int, throws: Task -> bool)
    requires EnumeratesOrganizations(ctx.index, orgIds)
    requires forall task :: !throws(task)
    ensures var tasks := Requested(Serialize(ctx, orgIds, stamp, fuel).items);
            var m := Started(0, ceiling, |tasks|);
            Replay(Queue([], 0), Pushes(tasks), ceiling, throws) == Some(Queue(tasks[m..], m))
  {
    var tasks := Requested(Serialize(ctx, orgIds, stamp, fuel).items);
    PushesFillThenWait(Queue([], 0), tasks, ceiling, throws);
    assert [] + tasks[Started(0, ceiling, |tasks|)..] == tasks[Started(0, ceiling, |tasks|)..];
  }

  /** What a folder's own hook does: its directory, then its `meta.json`. */
  function FolderWrites(node: Entity, dir: string): seq<Action> {
    [MakeDir(dir), WriteJson(dir + "/meta.json", node)]
  }

  /** A folder without files: its own writes, then its sub-folders in link order. */
  lemma VisitFolder(ctx: Context, node: Entity, path: string, fuel: nat, subs: seq<Action>)
    requires fuel > 0 && Links(node, "files") == []
    requires VisitIds(ctx, Folders, Links(node, "folders"), path + "/" + Field(node, "name"), fuel - 1) == Emit(subs)
    ensures Visit(ctx, Folders, node, path, fuel) == Emit(FolderWrites(node, path + "/" + Field(node, "name")) + subs)
  {
    var dir := path + "/" + Field(node, "name");
    var specs := Children(Folders);
    var folders := VisitIds(ctx, Folders, Links(node, "folders"), dir, fuel - 1);
    assert specs[0] == ChildSpec("folders", Folders) && specs[1] == ChildSpec("files", Files);
    assert specs[1..][1..] == [];
    assert VisitSpecs(ctx, node, specs[1..], dir, fuel - 1) == Done();
    ThenDone(folders);
    assert VisitSpecs(ctx, node, specs, dir, fuel - 1) == folders;
    assert DirectoryHook(ctx, Folders, node, dir, fuel) == Emit(FolderWrites(node, dir));
    assert Hook(ctx, Folders, node, path, fuel) == Hooked(dir, Emit(FolderWrites(node, dir)));
  }

  lemma VisitIdsCons(ctx: Context, t: EntityType, child: Entity, rest: seq<Id>, path: string, fuel: nat)
    requires Lookup(ctx.index, (t, child.id)) == Some(child)
    ensures VisitIds(ctx, t, [child.id] + rest, path, fuel) == Then(Visit(ctx, t, child, path, fuel), VisitIds(ctx, t, rest, path, fuel))
  {
    var ids := [child.id] + rest;
    assert ids[0] == child.id && ids[1..] == rest;
  }

  /** A folder with neither sub-folders nor files writes only its own directory and `meta.json`. */
  lemma LeafFolder(ctx: Context, node: Entity, path: string, fuel: nat)
    requires fuel > 0 && Links(node, "folders") == [] && Links(node, "files") == []
    ensures Visit(ctx, Folders, node, path, fuel) == Emit(FolderWrites(node, path + "/" + Field(node, "name")))
  {
    assert VisitIds(ctx, Folders, [], path + "/" + Field(node, "name"), fuel - 1) == Emit([]);
    VisitFolder(ctx, node, path, fuel, []);
    AppendNothing(FolderWrites(node, path + "/" + Field(node, "name")));
  }

  lemma VisitIdsOne(ctx: Context, t: EntityType, child: Entity, path: string, fuel: nat)
    requires Lookup(ctx.index, (t, child.id)) == Some(child)
    ensures VisitIds(ctx, t, [child.id], path, fuel) == Visit(ctx, t, child, path, fuel)
  {
    VisitIdsCons(ctx, t, child, [], path, fuel);
    assert [child.id] + [] == [child.id];
    ThenDone(Visit(ctx, t, child, path, fuel));
  }

  /** A folder whose only content is one leaf sub-folder. */
  lemma FolderWithLeaf(ctx: Context, a: Entity, c: Entity, path: string, fuel: nat)
    requires fuel >= 2
    requires Links(a, "folders") == [c.id] && Links(a, "files") == []
    requires Links(c, "folders") == [] && Links(c, "files") == []
    requires Lookup(ctx.index, (Folders, c.id)) == Some(c)
    ensures var pa := path + "/" + Field(a, "name");
            Visit(ctx, Folders, a, path, fuel) == Emit(FolderWrites(a, pa) + FolderWrites(c, pa + "/" + Field(c, "name")))
  {
    var pa := path + "/" + Field(a, "name");
    var wc := FolderWrites(c, pa + "/" + Field(c, "name"));
    assert VisitIds(ctx, Folders, Links(a, "folders"), pa, fuel - 1) == Emit(wc) by {
      LeafFolder(ctx, c, pa, fuel - 1);
      VisitIdsOne(ctx, Folders, c, pa, fuel - 1);
    }
    VisitFolder(ctx, a, path, fuel, wc);
  }

  /** Two resolvable siblings: the first one's whole subtree, then the second's. */
  lemma TwoSiblings(ctx: Context, t: EntityType, a: Entity, b: Entity, path: string, fuel: nat)
    requires Lookup(ctx.index, (t, a.id)) == Some(a) && Lookup(ctx.index, (t, b.id)) == Some(b)
    ensures VisitIds(ctx, t, [a.id, b.id], path, fuel) == Then(Visit(ctx, t, a, path, fuel), Visit(ctx, t, b, path, fuel))
  {
    VisitIdsOne(ctx, t, b, path, fuel);
    VisitIdsCons(ctx, t, a, [b.id], path, fuel);
    assert [a.id] + [b.id] == [a.id, b.id];
  }

  /**
   * Depth-first pre-order: a folder R with sub-folders [A, B], where A has
   * the single sub-folder C, writes R, then A inside R, then C inside A,
   * then B inside R.
   */
  lemma DepthFirstOrder(ctx: Context, r: Entity, a: Entity, b: Entity, c: Entity, path: string, fuel: nat)
    requires fuel >= 3
    requires Links(r, "folders") == [a.id, b.id] && Links(r, "files") == []
    requires Links(a, "folders") == [c.id] && Links(a, "files") == []
    requires Links(b, "folders") == [] && Links(b, "files") == []
    requires Links(c, "folders") == [] && Links(c, "files") == []
    requires Lookup(ctx.index, (Folders, a.id)) == Some(a) && Lookup(ctx.index, (Folders, b.id)) == Some(b)
    requires Lookup(ctx.index, (Folders, c.id)) == Some(c)
    ensures var pr := path + "/" + Field(r, "name");
            var pa := pr + "/" + Field(a, "name");
            Visit(ctx, Folders, r, path, fuel) ==
              Emit(FolderWrites(r, pr) + FolderWrites(a, pa) + FolderWrites(c, pa + "/" + Field(c, "name")) +
                   FolderWrites(b, pr + "/" + Field(b, "name")))
  {
    var pr := path + "/" + Field(r, "name");
    var pa := pr + "/" + Field(a, "name");
    var wr, wa := FolderWrites(r, pr), FolderWrites(a, pa);
    var wc, wb := FolderWrites(c, pa + "/" + Field(c, "name")), FolderWrites(b, pr + "/" + Field(b, "name"));
    assert VisitIds(ctx, Folders, [a.id, b.id], pr, fuel - 1) == Emit(wa + wc + wb) by {
      FolderWithLeaf(ctx, a, c, pr, fuel - 1);
      LeafFolder(ctx, b, pr, fuel - 1);
      TwoSiblings(ctx, Folders, a, b, pr, fuel - 1);
    }
    assert Visit(ctx, Folders, r, path, fuel) == Emit(wr + (wa + wc + wb)) by {
      VisitFolder(ctx, r, path, fuel, wa + wc + wb);
    }
    Regroup(wr, wa, wc, wb);
  }

  lemma AppendNothing<T>(a: seq<T>)
    ensures a + [] == a
  {
  }

  lemma SplitAround<T>(s: seq<T>, k: nat)
    requires k < |s|
    ensures s == s[..k] + ([s[k]] + s[k + 1..])
  {
  }

  lemma Regroup<T>(a: seq<T>, b: seq<T>, c: seq<T>, d: seq<T>)
    ensures a + (b + c + d) == a + b + c + d
  {
  }
}

=== FILE: wrappers.dfy ===
/** Small failure-carrying datatypes shared by the rest of the model. */
module Wrappers {

  /** A value that may be absent: a missing JSON property, an id not in an index. */
  datatype Option<+T> = None | Some(value: T)

  /** The outcome of an operation that can fail with an error value. */
  datatype Result<+R, +E> = Success(value: R) | Failure(error: E)

  /**
   * Output produced by a computation that may stop part-way, because an
   * exception is thrown (the source has no recovery once one is): the items
   * emitted so far, and whether the computation stopped early.
   */
  datatype Emitted<T> = Emitted(items: seq<T>, halted: bool)

  /** Nothing emitted, nothing thrown. */
  function Done<T>(): Emitted<T> {
    Emitted([], false)
  }

  /** Items emitted, nothing thrown. */
  function Emit<T>(items: seq<T>): Emitted<T> {
    Emitted(items, false)
  }

  /** Run `a`, then `b` unless `a` threw: whatever `a` emitted stays emitted. */
  function Then<T>(a: Emitted<T>, b: Emitted<T>): (r: Emitted<T>)
    ensures |a.items| <= |r.items| && r.items[..|a.items|] == a.items
    ensures r.halted <==> a.halted || b.halted
    ensures a.halted ==> r == a
  {
    if a.halted then a else Emitted(a.items + b.items, b.halted)
  }

  lemma ThenDone<T>(a: Emitted<T>)
    ensures Then(a, Done()) == a
    ensures Then(Done(), a) == a
  {
  }

  lemma ThenAssoc<T>(a: Emitted<T>, b: Emitted<T>, c: Emitted<T>)
    ensures Then(Then(a, b), c) == Then(a, Then(b, c))
  {
    if !a.halted && !b.halted {
      assert (a.items + b.items) + c.items == a.items + (b.items + c.items);
    }
  }

  /** `x` occurs in `y` as one contiguous run starting at position `i`. */
  ghost predicate InfixAt<T>(x: seq<T>, y: seq<T>, i: int) {
    0 <= i <= |y| - |x| && y[i..i + |x|] == x
  }

  /** `x` occurs in `y` as one contiguous run. */
  ghost predicate Infix<T>(x: seq<T>, y: seq<T>) {
    exists i :: InfixAt(x, y, i)
  }

  /** Whatever `x` emits occurs whole in a run of `a`, `x`, `b` that does not throw. */
  lemma InfixMiddle<T>(a: Emitted<T>, x: Emitted<T>, b: Emitted<T>, whole: Emitted<T>)
    requires whole == Then(a, Then(x, b)) && !whole.halted
    ensures !x.halted && Infix(x.items, whole.items)
  {
    var y := whole.items;
    assert y == a.items + (x.items + b.items);
    assert InfixAt(x.items, y, |a.items|) by {
      assert y[|a.items|..|a.items| + |x.items|] == x.items;
    }
  }

  /** What `b` emits occurs whole in a run of `a` then `b` that does not throw. */
  lemma InfixLast<T>(a: Emitted<T>, b: Emitted<T>, whole: Emitted<T>)
    requires whole == Then(a, b) && !whole.halted
    ensures !b.halted && Infix(b.items, whole.items)
  {
    assert InfixAt(b.items, whole.items, |a.items|) by {
      assert whole.items == a.items + b.items;
    }
  }

  lemma InfixTrans<T>(x: seq<T>, y: seq<T>, z: seq<T>)
    requires Infix(x, y) && Infix(y, z)
    ensures Infix(x, z)
  {
    var i :| InfixAt(x, y, i);
    var j :| InfixAt(y, z, j);
    forall m | 0 <= m < |x|
      ensures z[j + i + m] == x[m]
    {
      assert x[m] == y[i..i + |x|][m] == y[i + m];
      assert y[i + m] == z[j..j + |y|][i + m] == z[j + i + m];
    }
    assert z[j + i..j + i + |x|] == x;
    assert InfixAt(x, z, j + i);
  }
}
